=== FILE: README.md ===
# Doodle-jump frame logic in Dafny

A model of the per-frame game logic of the vertical platformer in `main.py`,
separated from pygame. A session is an immutable record: the mode
(`Menu | Playing | GameOver`), the player, the pool of eleven platforms and the
booster, bullet and enemy sprite groups. `Game.Step` is one pass of the main
loop. It takes the frame's input and an oracle: the random draws, each enemy's
sideways drift and the jump scale. It handles the queued button presses first,
then runs what the resulting mode does in that same frame: simulate play, update
the high score, or nothing.

Modules follow the parts of the source:

- `Config`: the tuning constants and the sizes of the sprites' fallback surfaces.
- `Geometry`: boxes with pygame's `colliderect` and `collidepoint` rules.
- `Random`: the draw stream. Each call into `random` consumes one draw.
- `Players`: `Player.reset` and `Player.update`, the rocket timer, the horizontal wrap and the difficulty multiplier.
- `Platforms`: platform kinds, construction flags and movement.
- `Entities`: boosters, bullets, enemies and their groups.
- `Camera`: the upward-only scroll.
- `Generator`: `spawn_platform`, the seeding in `reset_game` and the recycling loop.
- `Collisions`: landing, booster pickup and enemy contact.
- `Game`: the state machine, `reset_game` and the frame.

Some behaviour of the code is modelled as written:

- The player's box is the sprite rectangle computed in `Player.update`. The camera shift moves the position but not that box, so every collision in a frame uses the box from before the shift.
- The recycling loop walks a snapshot of the pool. The height of a replacement is the minimum over the live list at that moment. That list holds already-moved survivors, not-yet-moved platforms and earlier replacements. A removal needs another live platform, or the `min` has nothing to range over. The model asks for a pool of at least two, and the pool is proved to stay at eleven.
- Landing tries every platform, because the `vel.y > 0` test is made once before the loop. Each landing sets the vertical speed again, so the last one wins, and every breakable platform landed on is used up.
- One bullet destroys every enemy it touches.
- A freshly spawned enemy's rectangle sits at the top-left corner (0, 0) until its first update.
- All presses queued in a frame are handled at the pointer position sampled at the start of the frame.
- The high score is raised on every reset and on every frame spent in `GameOver`.

Some consequences of the code that are easy to overlook:

- The wrapped x lies in the closed range [0, 360]: x = 360 can occur.
- More than one platform can register a landing in one frame.
- A bullet can destroy several enemies.
- The high score is not updated on the frame that enters `GameOver`. It is updated on the next frame, or on the reset.

Python's `//` floors. Dafny's `/` by a positive divisor also floors, so the multiplier's `(score - 50) // 70` is written as `(score - 50) / 70` for every score.

## Model

| member | source | states |
|---|---|---|
| `Random.RandInt` | main.py:210 | A column drawn by `randint(lo, hi)` always lies in `[lo, hi]`. |
| `Random.ChooseSpeed` | main.py:125 | `choice([-2, 2])` gives -2 or 2: -2 exactly for a draw below one half. |
| `Players.Multiplier` | main.py:269 | The multiplier is at least 1, and exactly 1 for every score below 120. |
| `Players.MultiplierMonotone` | main.py:269 | The multiplier never decreases as the score grows. |
| `Players.MultiplierStep` | main.py:269 | Past 50 points, every further 70 points add exactly 0.25. |
| `Players.Wrap` | main.py:91-92 | The result lies in [0, 360]. Past the right edge gives 0, past the left edge gives 360, and an x already inside is unchanged (no clamping). |
| `Players.Reset` | main.py:61-69 | Reset puts the player at (180, 540) with zero speed, zero acceleration, score 0, multiplier 1 and timer 0. The box's bottom is at the start height. High score and character are kept. |
| `Players.Update` | main.py:71-93 | A positive rocket timer drops by exactly 1 and a non-positive one is unchanged, so the timer never goes negative. Above 45 the vertical speed is pinned to -28. From 1 to 45 it gains 0.55. Otherwise gravity times the multiplier is the vertical acceleration. The horizontal acceleration is then the steering push (0.9 times the multiplier, signed by the direction) plus the friction -0.12 times vx, and vx gains it. During the rocket both accelerations keep their old values. The position moves by the speed plus half the acceleration, and x wraps into [0, 360]. The box is re-centred on the position. |
| `Players.HorizontalSpeedBound` | main.py:82-86 | Under friction, a horizontal speed within 7.5 times the multiplier stays within it after a frame, whatever the steering. |
| `Players.Countdown` | main.py:72-78 | Over n frames with n at most the timer, the timer falls by exactly n. |
| `Players.BoostPhases` | main.py:72-80 | After a pickup (timer 130) the next 85 frames are full thrust and the following 45 are decay. After 130 frames the timer is 0, whatever the steering. |
| `Players.ThrustPinsSpeed` | main.py:72-74 | In each of the 85 thrust frames after a pickup, the vertical speed is -28. |
| `Platforms.Classify` | main.py:208-209 | A draw above 0.90 gives a breakable platform, one in (0.75, 0.90] a moving one, and anything else a normal one. |
| `Platforms.Make` | main.py:121-128 | A new platform is active. Its speed is -2 exactly when the first draw is below 0.5. It has a spring exactly when the second draw exceeds 0.88, it is normal and its width is below 100. It has a booster exactly when the third draw exceeds 0.94 and it is normal. Three draws are consumed; an exhausted stream draws 0. |
| `Platforms.MoveAsWritten` | main.py:130-134 | The source's update: the shift moves every platform. A moving platform steps sideways by its speed times the multiplier, and its speed flips exactly when it then touches or passes either edge, whichever way it was already going. |
| `Platforms.EdgeLockAsWritten` | main.py:134 | With the source's bounce, a moving platform at x = 0 heading left comes back to the same place and speed every two frames, whatever the shifts. It never leaves the edge. |
| `Platforms.Move` | main.py:130-134 | The shift moves every platform. A moving platform steps by speed times multiplier, and its speed keeps magnitude 2. After the step, a platform at or past the left edge heads right and one at the right edge heads left. Kind, flags and activity are unchanged. |
| `Platforms.MoveMatchesAsWritten` | main.py:130-134 | The corrected move differs from the source's only in the speed. The speeds differ only for a moving platform that ends the step at an edge while already heading back into the screen. |
| `Platforms.BounceLeavesEdge` | main.py:132-134 | With the corrected bounce, a platform that ends a frame at the left edge moves right on the next frame, and one at the right edge moves left. |
| `Platforms.ShiftPreservesGaps` | main.py:131 | The camera shift keeps the vertical distance between any two platforms. |
| `Entities.UpdateBoosters` | main.py:116-118 | A booster survives exactly when its shifted top is still on screen, and all survivors are on screen. |
| `Entities.UpdateBullets` | main.py:161-164 | A bullet survives exactly when its moved bottom is not above the screen. |
| `Entities.UpdateEnemies` | main.py:179-183 | An enemy survives exactly when its moved, re-centred top is still on screen. |
| `Entities.NewEnemy` | main.py:175-176 | A new enemy is at height -100, and its rectangle still sits at the origin. |
| `Entities.BulletsHit` | main.py:301 | No surviving bullet touches a surviving enemy. Every destroyed enemy touched some bullet and every destroyed bullet touched some enemy. Survivors come from the inputs. |
| `Camera.Shift` | main.py:272-275 | The shift is never negative. It is positive exactly when the player is above the midline, and it moves such a player toward the midline without reaching it. |
| `Generator.Spawn` | main.py:207-213 | A spawned platform has the standard width and is active and well formed, with x in [0, 285]. Its kind is the classification of the first draw. It brings a booster sprite, above its top, exactly when it has the booster flag. |
| `Generator.SeedRows` | main.py:221-223 | Seeding makes n spawned platforms, the i-th at `y - 90 i`. |
| `Generator.Seed` | main.py:220-223 | The pool has 11 platforms: a full-width, spring-free normal base at 620, then ten spawned ones at `530 - 90 k`. |
| `Generator.MinYIsHighest` | main.py:282 | The result is the y of some platform and no platform is higher. |
| `Generator.SurvivorsExact` | main.py:278-281 | The kept platforms are exactly the moved platforms still on screen, each the move of an original. |
| `Generator.MaybeEnemy` | main.py:284 | An enemy is spawned exactly when the draw exceeds 0.95, and then only one, at height -100 with x in [50, 310]. |
| `Generator.MovedAt` | main.py:278-279 | Moving a list of platforms moves each one in place, the list `Recycle`'s placement is stated over. |
| `Generator.FirstDrop` | main.py:278-281 | The index of the first platform the move drops below the screen: every earlier one stays, and it drops (or it is the pool size when none drops). |
| `Generator.MinYIsLastAdded` | main.py:282 | Once a replacement exists, the highest live platform is the latest replacement. |
| `Generator.SpawnStaysAbove` | main.py:282 | A replacement placed 90 above the highest live platform lies a full gap above every other live platform. |
| `Generator.RecycleFrom` | main.py:278-284 | The loop from any point: the pool size is unchanged, the count rises by exactly the number of visited platforms that drop, and the booster and enemy groups only grow. Each removal adds at most one booster sprite and at most one enemy, and every added enemy is at height -100. |
| `Generator.RecycleFromPrefix` | main.py:278-284 | The loop leaves the kept platforms, then the survivors of the unvisited part in order, then the earlier replacements; new replacements only follow them. |
| `Generator.RecycleFromChain` | main.py:278-284 | After the survivors, each replacement lies exactly 90 above the one before it. |
| `Generator.RecycleFromNextPlaced` | main.py:278-282 | The next replacement lies exactly 90 above the highest platform of the live list at that moment: kept platforms, the moved ones passed over, the unmoved rest and earlier replacements. |
| `Generator.RecycleFromLayout` | main.py:278-283 | After the loop the pool is the survivors in their old order, then the replacements. Each replacement is a full gap above every platform before it. |
| `Generator.Recycle` | main.py:278-284 | The pool size is unchanged, and the score gain equals the number of platforms removed. Survivors come first, in order. The first replacement lies exactly 90 above the highest of the moved platforms before the first drop and the unmoved ones after it. Each later replacement lies exactly 90 above the previous one. Every replacement is spawnable. Booster and enemy groups only grow, by at most one booster and one enemy per removed platform, and every new enemy is at height -100. |
| `Collisions.Impulse` | main.py:290 | A jump is always upward (negative). A spring doubles the base jump. |
| `Collisions.Trodden` | main.py:291 | Landing deactivates exactly the breakable platforms and changes nothing else. |
| `Collisions.Land` | main.py:287-291 | A landing happens exactly when some active platform is overlapped with the feet within 20 of its top. Then the speed becomes negative; otherwise it is unchanged. Only platforms landed on change. |
| `Collisions.LastLandingWins` | main.py:287-290 | The resulting speed is the jump of the last platform landed on. |
| `Collisions.LandingIsOneShot` | main.py:288-291 | No platform is reactivated. Inactive platforms are untouched. Breakable platforms landed on become inactive. |
| `Collisions.BreakableConsumed` | main.py:288-291 | A second pass with the same box lands exactly on the non-breakable platforms the first pass landed on. If only breakables were landed on, the player falls through with unchanged speed. |
| `Collisions.FirstTouched` | main.py:293 | The result is the first booster the box touches, or none. |
| `Collisions.Interact` | main.py:286-296 | A player that is not falling changes nothing. A falling player gets the platforms and speed of the landing pass: a negative speed after a landing, the old one otherwise, breakables landed on used up, nothing else touched. If a booster is touched, the first one touched is removed and the timer becomes 130. Otherwise the boosters and timer are unchanged. Nothing else in the player changes. |
| `Collisions.TouchedConcat` | main.py:299 | The enemy-contact test over a group split in two parts holds exactly when it holds over either part, so neither the group's order nor which enemies are new this frame matters. |
| `Game.CharacterAt` | main.py:237-240 | The result is the first portrait under the pointer, or 4 when there is none. |
| `Game.MoveDir` | main.py:266-267 | Steering is nonzero exactly when the button is held off the shoot button. It points toward the pointer's half of the screen. |
| `Game.ResetGame` | main.py:215-223 | The high score becomes the larger of high score and score. Score, timer and speed are zero and the multiplier is 1. Bullets and enemies are cleared. The boosters are only those of the new pool, so the old ones are gone. The pool is the 11 seeded, active, well-formed platforms. |
| `Game.Start` | main.py:225-226 | The game opens in the menu with a valid pool, high score 0 and the first character. |
| `Game.Click` | main.py:235-252 | In the menu, a press on a portrait only selects that character and any other press resets and starts play. In play, a press fires one bullet exactly when it is on the shoot button with timer at most 0. In game over, retry resets and plays, menu goes to the menu, and anything else changes nothing. |
| `Game.Clicks` | main.py:233-252 | No presses change nothing. Presses during play never leave play, move the player or touch the platforms. The high score never drops. |
| `Game.Play` | main.py:265-296 | The pool stays at 11 and play goes on. The score rises by exactly the number of platforms this frame's move drops below the screen. The multiplier is the one for the score at the frame's start. x stays in [0, 360]. Bullets are the updated group; the updated enemies are kept and new ones only follow them. For a falling player the platforms and the vertical speed are exactly the landing pass over the recycled pool: a bounce happens exactly when some platform is landed on, and only landed breakables die. A falling player touching a booster starts the 130-frame rocket and that booster is removed; otherwise the boosters are the recycled ones. A rising player changes no platform. No surviving platform that was dead comes back. |
| `Game.Judge` | main.py:298-318 | The game ends exactly when the rocket is off and the player touches an enemy present before the bullets fire, or when the player is below the screen. Bullets and enemies then destroy each other as `groupcollide` does. |
| `Game.Frame` | main.py:265-318 | The pool stays at 11. The score rises by exactly the number of platforms dropped below the screen, at most 11. Falling below the screen ends the game. A running rocket with the player on screen keeps play going. x stays in [0, 360]. Bullets and enemies are those left after the updated groups meet. For a falling player the platforms and the vertical speed are exactly the landing pass over the recycled pool, and for a rising one they are unchanged. A booster starts the rocket, and no surviving platform that was dead comes back. |
| `Game.RocketProtects` | main.py:298-301 | A running rocket with the player on screen keeps play going. With the rocket off, touching any enemy at the check ends the game. |
| `Game.Step` | main.py:228-321 | The pool stays at 11 and the high score never decreases. The menu and game over are idle without presses, except that game over raises the high score to the score. Play never goes back to the menu in one frame and never lowers the score, and no surviving platform that was dead comes back. |

## Left out

- Rendering: images, fonts, the fallback surfaces, all `draw` calls and the UI panel. Only the fallback surfaces' sizes are kept, as hit boxes.
- Sprite rotation, the `angle` easing and image flipping. These are presentation only. The player's box is a fixed 50 by 80 box, not the bounding box of the rotated image.
- `select_char`'s change of image and rectangle: only the character index is kept. The next reset recomputes the box anyway.
- `pygame.QUIT`, the event queue, `clock.tick` and the asyncio loop. A frame's input is the sampled pointer, the held flag and the number of queued presses.
- The enemies' sine wobble, which reads the wall clock. Each enemy's sideways drift is an oracle value (0 when none is given), so enemy x is unconstrained.
- `speed_multiplier ** 0.3`: an oracle value `jumpScale`, only known to be positive.
- The random-number generator. Draws come as a stream of reals in [0, 1), with 0.0 once the stream runs out. `randint` and `choice` are computed from one draw each. The enemy's wobble phase consumes a draw and is otherwise dropped.
- pygame's integer rectangles. Coordinates are exact reals, so truncation of fractional moves and shifts is not modelled.
- Platforms.Move: the model's moving platforms use the corrected bounce below, not the source's. `Platforms.MoveMatchesAsWritten` bounds the difference to the speed of a platform at an edge.
- Generator.Recycle: asks for a pool of at least two platforms. The source also runs with a single platform that stays on screen, or with none; the eleven-platform pool never reaches either.

## Findings

| source | as written | input that shows it | evidently intended | confidence | as-written member | corrected member |
|---|---|---|---|---|---|---|
| main.py:134 | a moving platform reverses whenever it is at or beyond an edge, whichever way it is already heading | a moving platform spawned at x = 0 with speed -2 and multiplier 1.0: x goes -2, 0, -2, 0, … and the speed flips every frame, so the platform never leaves the left edge (likewise x = 285 with speed +2 at the right edge) | at an edge the platform turns to head back into the screen | high, not executed | `Platforms.EdgeLockAsWritten` | `Platforms.Move` |

=== FILE: camera.dfy ===
/** The scrolling camera (main.py, lines 272-275): once the player rises above
    the middle of the screen, the world is pushed down by a fraction of the
    overshoot. */
module Camera {
  import opened Config

  const Midline: real := (Height / 2) as real

  /** The downward shift applied to the world this frame for a player at height `y`. */
  function Shift(y: real): (shift: real)
    ensures shift >= 0.0
    ensures shift > 0.0 <==> y < Midline
    ensures y < Midline ==> y < y + shift < Midline
  {
    if y < Midline then (Midline - y) * 0.15 else 0.0
  }
}

=== FILE: collisions.dfy ===
/** The player's interactions during a frame (main.py, lines 286-299): landing
    on platforms, picking up a booster, and touching an enemy. */
module Collisions {
  import opened Config
  import opened Geometry
  import opened Platforms
  import opened Entities
  import opened Players

  /** The player's box lands on `p`: an active platform it overlaps, with the
      player's feet no more than the tolerance below the platform's top. */
  predicate Lands(box: Box, p: Platform) {
    p.active && Overlaps(box, p.Box()) && box.Bottom() <= p.y + LandingTolerance as real
  }

  /** The jump a landing on `p` gives; `scale` stands for the multiplier raised
      to the power 0.3. */
  function Impulse(p: Platform, scale: real): (v: real)
    requires scale > 0.0
    ensures v < 0.0
    ensures !p.spring ==> v == BaseJump * scale
    ensures p.spring ==> v == 2.0 * BaseJump * scale
  {
    (if p.spring then SpringJump else BaseJump) * scale
  }

  /** A platform after being landed on: breakable ones are used up. */
  function Trodden(p: Platform): (q: Platform)
    ensures q.active ==> p.active
    ensures q.active <==> p.active && p.kind != Breakable
    ensures q.(active := p.active) == p
  {
    if p.kind == Breakable then p.(active := false) else p
  }

  datatype Landing = Landing(platforms: seq<Platform>, vy: real, landed: bool)

  /** The landing loop: every platform is tried in order, each landing sets the
      vertical speed afresh (so the last one wins), and every breakable platform
      landed on is used up. */
  function Land(ps: seq<Platform>, box: Box, vy: real, scale: real): (r: Landing)
    requires scale > 0.0
    ensures |r.platforms| == |ps|
    ensures r.landed <==> exists i :: 0 <= i < |ps| && Lands(box, ps[i])
    ensures r.landed ==> r.vy < 0.0
    ensures !r.landed ==> r.vy == vy
    ensures forall i :: 0 <= i < |ps| ==>
      r.platforms[i] == if Lands(box, ps[i]) then Trodden(ps[i]) else ps[i]
  {
    if |ps| == 0 then Landing([], vy, false)
    else
      var here := Lands(box, ps[0]);
      var rest := Land(ps[1..], box, if here then Impulse(ps[0], scale) else vy, scale);
      assert forall j :: 1 <= j < |ps| ==> ps[j] == ps[1..][j - 1];
      Landing([if here then Trodden(ps[0]) else ps[0]] + rest.platforms, rest.vy, here || rest.landed)
  }

  /** Of several platforms landed on in one frame, the last one in the list
      decides the jump. */
  lemma {:induction false} LastLandingWins(ps: seq<Platform>, box: Box, vy: real, scale: real)
    requires scale > 0.0
    requires Land(ps, box, vy, scale).landed
    ensures exists i :: (0 <= i < |ps| && Lands(box, ps[i])
      && Land(ps, box, vy, scale).vy == Impulse(ps[i], scale)
      && forall j :: i < j < |ps| ==> !Lands(box, ps[j]))
  {
    var here := Lands(box, ps[0]);
    var v := if here then Impulse(ps[0], scale) else vy;
    var rest := Land(ps[1..], box, v, scale);
    assert forall j :: 1 <= j < |ps| ==> ps[j] == ps[1..][j - 1];
    if rest.landed {
      LastLandingWins(ps[1..], box, v, scale);
      var k :| 0 <= k < |ps| - 1 && Lands(box, ps[1..][k]) && rest.vy == Impulse(ps[1..][k], scale)
        && forall j :: k < j < |ps| - 1 ==> !Lands(box, ps[1..][j]);
      assert forall j :: k + 1 < j < |ps| ==> !Lands(box, ps[j]);
    } else {
      assert forall j :: 0 < j < |ps| ==> !Lands(box, ps[j]);
    }
  }

  /** Landing never brings a platform back: an inactive platform neither lands
      the player nor changes, and breakable platforms landed on end up inactive. */
  lemma LandingIsOneShot(ps: seq<Platform>, box: Box, vy: real, scale: real)
    requires scale > 0.0
    ensures var r := Land(ps, box, vy, scale);
      forall i :: 0 <= i < |ps| ==>
        && (r.platforms[i].active ==> ps[i].active)
        && (!ps[i].active ==> r.platforms[i] == ps[i])
        && (Lands(box, ps[i]) && ps[i].kind == Breakable ==> !r.platforms[i].active)
  {
  }

  /** Landing twice in the same spot: the second pass can only land on platforms
      that are not breakable, so if the first landing was only on breakable
      platforms the player falls through. */
  lemma BreakableConsumed(ps: seq<Platform>, box: Box, vy: real, vy2: real, scale: real)
    requires scale > 0.0
    ensures var r2 := Land(Land(ps, box, vy, scale).platforms, box, vy2, scale);
      r2.landed <==> exists i :: 0 <= i < |ps| && Lands(box, ps[i]) && ps[i].kind != Breakable
    ensures (forall i :: 0 <= i < |ps| && Lands(box, ps[i]) ==> ps[i].kind == Breakable) ==>
      Land(Land(ps, box, vy, scale).platforms, box, vy2, scale).vy == vy2
  {
  }

  /** Index of the first booster the box touches, or |bs| when none
      (`spritecollideany`). */
  function FirstTouched(bs: seq<Booster>, box: Box): (i: nat)
    ensures i <= |bs|
    ensures i < |bs| ==> Overlaps(box, bs[i].box)
    ensures forall j :: 0 <= j < i ==> !Overlaps(box, bs[j].box)
  {
    if |bs| == 0 then 0
    else if Overlaps(box, bs[0].box) then 0
    else 1 + FirstTouched(bs[1..], box)
  }

  datatype Contact = Contact(player: Player, platforms: seq<Platform>, boosters: seq<Booster>)

  /** Lines 286-296: only a falling player lands or collects a booster; a
      collected booster starts the rocket and disappears. */
  function Interact(p: Player, ps: seq<Platform>, bs: seq<Booster>, scale: real): (r: Contact)
    requires scale > 0.0
    ensures |r.platforms| == |ps|
    ensures p.vy <= 0.0 ==> r == Contact(p, ps, bs)
    ensures r.player == p.(vy := r.player.vy, rocketTimer := r.player.rocketTimer)
    ensures r.player.rocketTimer == p.rocketTimer || r.player.rocketTimer == BoostFrames
    ensures r.player.rocketTimer == BoostFrames && p.rocketTimer != BoostFrames ==>
      |r.boosters| == |bs| - 1 && exists i :: 0 <= i < |bs| && Overlaps(p.box, bs[i].box)
    ensures (exists i :: 0 <= i < |bs| && Overlaps(p.box, bs[i].box)) && p.vy > 0.0 ==>
      r.player.rocketTimer == BoostFrames && |r.boosters| == |bs| - 1
    ensures forall b :: b in r.boosters ==> b in bs
    ensures (exists i :: 0 <= i < |ps| && Lands(p.box, ps[i])) && p.vy > 0.0 ==> r.player.vy < 0.0
    ensures forall i :: 0 <= i < |ps| ==> (r.platforms[i].active ==> ps[i].active)
    ensures p.vy > 0.0 ==>
      && r.platforms == Land(ps, p.box, p.vy, scale).platforms
      && r.player.vy == Land(ps, p.box, p.vy, scale).vy
    ensures p.vy > 0.0 ==> var i := FirstTouched(bs, p.box);
      && (i < |bs| ==> r.boosters == bs[..i] + bs[i + 1..] && r.player.rocketTimer == BoostFrames)
      && (i == |bs| ==> r.boosters == bs && r.player.rocketTimer == p.rocketTimer)
  {
    if p.vy > 0.0 then
      var landing := Land(ps, p.box, p.vy, scale);
      var i := FirstTouched(bs, p.box);
      if i < |bs| then
        Contact(p.(vy := landing.vy, rocketTimer := BoostFrames), landing.platforms,
                bs[..i] + bs[i + 1..])
      else
        Contact(p.(vy := landing.vy), landing.platforms, bs)
    else Contact(p, ps, bs)
  }

  /** An enemy touches the player's box (`spritecollide` returns a non-empty list). */
  predicate Touched(box: Box, es: seq<Enemy>): (t: bool)
    ensures t <==> exists e :: e in es && Overlaps(box, e.box)
  {
    exists i :: 0 <= i < |es| && Overlaps(box, es[i].box)
  }

  /** The touch test over a group made of two parts is the test over either
      part: the group's order and its split into the enemies kept from earlier
      frames and those spawned this frame do not matter. */
  lemma TouchedConcat(box: Box, es: seq<Enemy>, fs: seq<Enemy>)
    ensures Touched(box, es + fs) <==> Touched(box, es) || Touched(box, fs)
  {
  }
}

=== FILE: config.dfy ===
/** Tuning constants and fixed screen layout of the game (main.py, lines 7-27
    and the button rectangles built inside the main loop). */
module Config {

  /** Screen size in pixels. */
  const Width: int := 360
  const Height: int := 640

  /** Physics, per frame. */
  const BaseGravity: real := 0.6
  const BaseJump: real := -16.0
  const SpringJump: real := -32.0
  const RocketMaxSpeed: real := -28.0
  const RocketDuration: int := 85
  const RocketSlowdown: int := 45
  /** Gravity applied while the rocket is decaying. */
  const RocketDecayGravity: real := 0.55
  const Friction: real := -0.12
  const Acceleration: real := 0.9

  /** Frames granted by one booster pickup: full thrust, then decay. */
  const BoostFrames: int := RocketDuration + RocketSlowdown

  /** Platform generator. */
  const PoolSize: int := 11
  const PlatformGap: int := 90
  const PlatformWidth: int := 75
  const PlatformHeight: int := 18
  const LandingTolerance: int := 20

  /** Sizes of the sprites' fallback surfaces, used as their hit boxes. */
  const PlayerWidth: int := 50
  const PlayerHeight: int := 80
  const BoosterWidth: int := 30
  const BoosterHeight: int := 45
  const BulletWidth: int := 4
  const BulletHeight: int := 25
  const BulletSpeed: real := -22.0
  const EnemySize: int := 50
  /** Height at which enemies are spawned. */
  const EnemySpawnY: real := -100.0
}

=== FILE: entities.dfy ===
/** Boosters, bullets and enemies, and the sprite groups that hold them
    (main.py, the `update` methods of `Booster`, `Bullet` and `Enemy`, and the
    `groupcollide` of bullets against enemies). */
module Entities {
  import opened Config
  import opened Geometry

  datatype Booster = Booster(box: Box)

  /** A bullet is centred on (x, y) and only travels up. */
  datatype Bullet = Bullet(x: real, y: real) {
    function Box(): Box { CenteredAt(x, y, BulletWidth, BulletHeight) }
  }

  /** An enemy keeps its position and its rectangle apart: the rectangle is
      re-centred on the position only by `UpdateEnemy`, so a fresh enemy's
      rectangle still sits in the top-left corner until its first update. */
  datatype Enemy = Enemy(x: real, y: real, box: Box)

  function NewEnemy(x: int): (e: Enemy)
    ensures e.x == x as real && e.y == EnemySpawnY
    ensures e.box.left == 0.0 && e.box.top == 0.0
  {
    Enemy(x as real, EnemySpawnY, Box(0.0, 0.0, EnemySize as real, EnemySize as real))
  }

  /** Removal of killed sprites from a group: keeps, in order, exactly the
      members that are still alive. */
  function Survive<T(!new)>(xs: seq<T>, alive: T -> bool): (r: seq<T>)
    ensures |r| <= |xs|
    ensures forall x :: x in r <==> x in xs && alive(x)
    ensures (forall i :: 0 <= i < |xs| ==> alive(xs[i])) ==> r == xs
  {
    if |xs| == 0 then []
    else if alive(xs[0]) then [xs[0]] + Survive(xs[1..], alive)
    else Survive(xs[1..], alive)
  }

  /** One frame of a sprite group: `step(i, x)` updates the i-th member, and
      the updated members that are no longer `alive` are killed. */
  function Advance<T(!new)>(xs: seq<T>, step: (int, T) -> T, alive: T -> bool): (r: seq<T>)
    ensures |r| <= |xs|
    ensures forall x :: x in r ==> alive(x)
    ensures forall i :: 0 <= i < |xs| ==> (step(i, xs[i]) in r <==> alive(step(i, xs[i])))
    ensures forall x :: x in r ==> exists i :: 0 <= i < |xs| && x == step(i, xs[i])
  {
    var moved := seq(|xs|, i requires 0 <= i < |xs| => step(i, xs[i]));
    var r := Survive(moved, alive);
    forall i | 0 <= i < |xs|
      ensures step(i, xs[i]) in r <==> alive(step(i, xs[i]))
    {
      assert moved[i] == step(i, xs[i]) && moved[i] in moved;
    }
    r
  }

  function ShiftBooster(b: Booster, shift: real): Booster {
    Booster(b.box.Shifted(shift))
  }

  /** `Booster.update`: scroll with the camera, vanish once below the screen. */
  function UpdateBoosters(bs: seq<Booster>, shift: real): (r: seq<Booster>)
    ensures |r| <= |bs|
    ensures forall b :: b in r ==> b.box.top <= Height as real
    ensures forall i :: 0 <= i < |bs| ==>
      (ShiftBooster(bs[i], shift) in r <==> bs[i].box.top + shift <= Height as real)
  {
    Advance(bs, (i: int, b: Booster) => ShiftBooster(b, shift),
            (b: Booster) => b.box.top <= Height as real)
  }

  function MoveBullet(b: Bullet, shift: real): Bullet {
    b.(y := b.y + BulletSpeed + shift)
  }

  /** `Bullet.update`: fly up, scroll with the camera, vanish once above the screen. */
  function UpdateBullets(bs: seq<Bullet>, shift: real): (r: seq<Bullet>)
    ensures |r| <= |bs|
    ensures forall b :: b in r ==> b.Box().Bottom() >= 0.0
    ensures forall i :: 0 <= i < |bs| ==>
      (MoveBullet(bs[i], shift) in r <==> MoveBullet(bs[i], shift).Box().Bottom() >= 0.0)
  {
    Advance(bs, (i: int, b: Bullet) => MoveBullet(b, shift),
            (b: Bullet) => b.Box().Bottom() >= 0.0)
  }

  /** `Enemy.update`: scroll with the camera, drift sideways by `wobble`, and
      re-centre the rectangle. */
  function MoveEnemy(e: Enemy, shift: real, wobble: real): (f: Enemy)
    ensures f.y == e.y + shift && f.x == e.x + wobble
    ensures f.box == CenteredAt(f.x, f.y, EnemySize, EnemySize)
  {
    var x := e.x + wobble;
    var y := e.y + shift;
    Enemy(x, y, CenteredAt(x, y, EnemySize, EnemySize))
  }

  /** The sideways drift of enemy i this frame; enemies past the end of the
      supplied drifts do not drift. */
  function WobbleAt(wobble: seq<real>, i: int): real {
    if 0 <= i < |wobble| then wobble[i] else 0.0
  }

  function UpdateEnemies(es: seq<Enemy>, shift: real, wobble: seq<real>): (r: seq<Enemy>)
    ensures |r| <= |es|
    ensures forall e :: e in r ==> e.box.top <= Height as real
    ensures forall i :: 0 <= i < |es| ==>
      var f := MoveEnemy(es[i], shift, WobbleAt(wobble, i));
      (f in r <==> f.box.top <= Height as real)
  {
    Advance(es, (i: int, e: Enemy) => MoveEnemy(e, shift, WobbleAt(wobble, i)),
            (e: Enemy) => e.box.top <= Height as real)
  }

  /** `groupcollide(bullets, enemies, True, True)`: bullets in order; each one
      destroys every enemy still alive that it touches, and is itself destroyed
      if it touched any. */
  function BulletsHit(bs: seq<Bullet>, es: seq<Enemy>): (r: (seq<Bullet>, seq<Enemy>))
    ensures forall b, e :: b in r.0 && e in r.1 ==> !Overlaps(b.Box(), e.box)
    ensures forall b :: b in r.0 ==> b in bs
    ensures forall e :: e in r.1 ==> e in es
    ensures forall e :: e in es && e !in r.1 ==> exists b :: b in bs && Overlaps(b.Box(), e.box)
    ensures forall b :: b in bs && b !in r.0 ==> exists e :: e in es && Overlaps(b.Box(), e.box)
    ensures |r.0| <= |bs| && |r.1| <= |es|
  {
    if |bs| == 0 then ([], es)
    else
      var b := bs[0];
      var spared := Survive(es, (e: Enemy) => !Overlaps(b.Box(), e.box));
      var rest := BulletsHit(bs[1..], spared);
      var hit := exists i :: 0 <= i < |es| && Overlaps(b.Box(), es[i].box);
      if hit then rest else ([b] + rest.0, rest.1)
  }
}

=== FILE: game.dfy ===
/** The game session: the MENU / PLAYING / GAMEOVER state machine, `reset_game`,
    and one frame of play (main.py, `reset_game` and the body of the main loop). */
module Game {
  import opened Config
  import opened Geometry
  import opened Random
  import opened Players
  import opened Platforms
  import opened Entities
  import opened Camera
  import opened Generator
  import opened Collisions

  datatype Mode = Menu | Playing | GameOver

  datatype Session = Session(
    mode: Mode,
    player: Player,
    platforms: seq<Platform>,
    boosters: seq<Booster>,
    bullets: seq<Bullet>,
    enemies: seq<Enemy>)

  /** One frame's input: the pointer position sampled at the start of the frame,
      whether the button is held, and how many button presses were queued.
      Every queued press is handled at the sampled position. */
  datatype Input = Input(pointer: Point, pressed: bool, clicks: nat)

  /** What the frame takes from outside the game's logic: the random draws, the
      sideways drift of each enemy (a sine of the wall clock) and the
      multiplier raised to the power 0.3. */
  datatype Oracle = Oracle(draws: Stream, wobble: seq<real>, jumpScale: real)

  predicate ValidOracle(o: Oracle) {
    Unit(o.draws) && o.jumpScale > 0.0
  }

  /** The pool always holds eleven platforms. */
  predicate Valid(s: Session) {
    |s.platforms| == PoolSize
  }

  /** Fixed screen regions. */
  const ShootButton: Box := Box((Width / 2 - 35) as real, (Height - 90) as real, 70.0, 70.0)
  const RetryButton: Box := Box((Width / 2 - 85) as real, (Height / 2 + 20) as real, 170.0, 45.0)
  const MenuButton: Box := Box((Width / 2 - 85) as real, (Height / 2 + 80) as real, 170.0, 45.0)

  /** The portrait of character i on the menu: 70 by 90, centred at
      (WIDTH/4 * i + WIDTH/8, 300). */
  function CharacterBox(i: int): Box {
    CenteredAt(((Width / 4) * i + Width / 8) as real, 300.0, 70, 90)
  }

  /** The first character portrait under the pointer, or 4 when none. */
  function CharacterAt(pt: Point): (i: nat)
    ensures i <= 4
    ensures i < 4 ==> CharacterBox(i).Contains(pt)
    ensures forall j :: 0 <= j < i ==> !CharacterBox(j).Contains(pt)
  {
    if CharacterBox(0).Contains(pt) then 0
    else if CharacterBox(1).Contains(pt) then 1
    else if CharacterBox(2).Contains(pt) then 2
    else if CharacterBox(3).Contains(pt) then 3
    else 4
  }

  /** Steering: holding the button anywhere but on the shoot button pushes
      toward the half of the screen the pointer is in. */
  function MoveDir(pt: Point, pressed: bool): (d: int)
    ensures -1 <= d <= 1
    ensures d != 0 <==> pressed && !ShootButton.Contains(pt)
    ensures d < 0 ==> pt.x < Width / 2
    ensures d > 0 ==> pt.x >= Width / 2
  {
    if pressed && !ShootButton.Contains(pt) then
      if pt.x < Width / 2 then -1 else 1
    else 0
  }

  function Max(a: int, b: int): (m: int)
    ensures m >= a && m >= b && (m == a || m == b)
  {
    if a > b then a else b
  }

  /** `reset_game`: record the high score, reset the player, empty the sprite
      groups and lay out a new pool. The mode is left to the caller. */
  function ResetGame(s: Session, d: Stream): (r: (Session, Stream))
    requires Unit(d)
    ensures var t := r.0;
      && Valid(t) && t.mode == s.mode
      && t.player.highScore == Max(s.player.highScore, s.player.score)
      && t.player.character == s.player.character
      && t.player.score == 0 && t.player.mult == 1.0 && t.player.rocketTimer == 0
      && t.player.vx == 0.0 && t.player.vy == 0.0
      && t.player.x == StartX && t.player.y == StartY
      && t.bullets == [] && t.enemies == []
      && t.platforms == Seed(d).platforms && t.boosters == Seed(d).boosters
      && t.platforms[0].y == (Height - 20) as real && t.platforms[0].width == Width
      && !t.platforms[0].spring
      && (forall i :: 1 <= i < PoolSize ==>
            t.platforms[i].y == (Height - 110 - PlatformGap * (i - 1)) as real)
      && (forall i :: 0 <= i < PoolSize ==> t.platforms[i].active && WellFormed(t.platforms[i]))
    ensures Unit(r.1)
  {
    var high := Max(s.player.highScore, s.player.score);
    var p := Players.Reset(s.player.(highScore := high));
    var rows := Seed(d);
    (Session(s.mode, p, rows.platforms, rows.boosters, [], []), rows.rest)
  }

  /** The session the game starts in: a reset on a new player, in the menu. */
  function Start(d: Stream): (s: Session)
    requires Unit(d)
    ensures Valid(s) && s.mode == Menu
    ensures s.player.highScore == 0 && s.player.score == 0 && s.player.character == 0
  {
    var blank := Player(0.0, 0.0, 0.0, 0.0, 0.0, 0.0, Box(0.0, 0.0, 0.0, 0.0), 0, 1.0, 0, 0, 0);
    ResetGame(Session(Menu, blank, [], [], [], []), d).0
  }

  /** One queued button press at `pt`. */
  function Click(s: Session, pt: Point, d: Stream): (r: (Session, Stream))
    requires Unit(d) && Valid(s)
    ensures Valid(r.0) && Unit(r.1)
    ensures r.0.player.highScore >= s.player.highScore
    ensures s.mode == Menu && CharacterAt(pt) < 4 ==>
      r.0 == s.(player := s.player.(character := CharacterAt(pt)))
    ensures s.mode == Menu && CharacterAt(pt) == 4 ==>
      r.0 == ResetGame(s, d).0.(mode := Playing)
    ensures s.mode == Playing ==>
      r.0 == (if ShootButton.Contains(pt) && s.player.rocketTimer <= 0
              then s.(bullets := s.bullets + [Bullet(s.player.box.left + (PlayerWidth / 2) as real,
                                                     s.player.box.top)])
              else s)
    ensures s.mode == GameOver && RetryButton.Contains(pt) ==>
      r.0 == ResetGame(s, d).0.(mode := Playing)
    ensures s.mode == GameOver && !RetryButton.Contains(pt) && MenuButton.Contains(pt) ==>
      r.0 == s.(mode := Menu)
    ensures s.mode == GameOver && !RetryButton.Contains(pt) && !MenuButton.Contains(pt) ==>
      r.0 == s
  {
    match s.mode
    case Menu =>
      var i := CharacterAt(pt);
      if i < 4 then (s.(player := s.player.(character := i)), d)
      else
        var (t, d1) := ResetGame(s, d);
        (t.(mode := Playing), d1)
    case Playing =>
      if ShootButton.Contains(pt) && s.player.rocketTimer <= 0 then
        var b := Bullet(s.player.box.left + (PlayerWidth / 2) as real, s.player.box.top);
        (s.(bullets := s.bullets + [b]), d)
      else (s, d)
    case GameOver =>
      if RetryButton.Contains(pt) then
        var (t, d1) := ResetGame(s, d);
        (t.(mode := Playing), d1)
      else if MenuButton.Contains(pt) then (s.(mode := Menu), d)
      else (s, d)
  }

  /** All of a frame's queued presses, in order, at the same pointer position. */
  function Clicks(s: Session, pt: Point, n: nat, d: Stream): (r: (Session, Stream))
    requires Unit(d) && Valid(s)
    ensures Valid(r.0) && Unit(r.1)
    ensures r.0.player.highScore >= s.player.highScore
    ensures n == 0 ==> r == (s, d)
    ensures s.mode == Playing ==>
      r.0.mode == Playing && r.0.player == s.player && r.0.platforms == s.platforms
    decreases n
  {
    if n == 0 then (s, d)
    else
      var (t, d1) := Click(s, pt, d);
      Clicks(t, pt, n - 1, d1)
  }

  /** The player after this frame's multiplier, steering and kinematics
      (lines 266-270). */
  function Advanced(s: Session, inp: Input): Player {
    Update(s.player.(mult := Multiplier(s.player.score)), MoveDir(inp.pointer, inp.pressed))
  }

  /** This frame's camera shift (lines 272-275). */
  function FrameShift(s: Session, inp: Input): real {
    Shift(Advanced(s, inp).y)
  }

  /** This frame's recycled pool (lines 277-284): the platforms, boosters and
      enemies after the sprite updates and the recycling loop. */
  function FramePool(s: Session, inp: Input, o: Oracle, d: Stream): (r: Recycled)
    requires Valid(s) && Unit(d)
    ensures |r.platforms| == PoolSize
    ensures r.count == |s.platforms|
      - |Survivors(s.platforms, FrameShift(s, inp), Multiplier(s.player.score))|
    ensures r.platforms[..|Survivors(s.platforms, FrameShift(s, inp), Multiplier(s.player.score))|]
      == Survivors(s.platforms, FrameShift(s, inp), Multiplier(s.player.score))
    ensures UpdateBoosters(s.boosters, FrameShift(s, inp)) <= r.boosters
    ensures UpdateEnemies(s.enemies, FrameShift(s, inp), o.wobble) <= r.enemies
  {
    var shift := FrameShift(s, inp);
    var r := Recycle(s.platforms, shift, Multiplier(s.player.score),
                     UpdateBoosters(s.boosters, shift), UpdateEnemies(s.enemies, shift, o.wobble), d);
    r
  }

  /** Lines 266-296 of a frame of play: steering, kinematics, camera, sprite
      updates, recycling, landing and booster pickup. The result is the session
      just before the enemy checks; its mode is still `Playing`. */
  function Play(s: Session, inp: Input, o: Oracle, d: Stream): (m: Session)
    requires s.mode == Playing && Valid(s) && Unit(d) && o.jumpScale > 0.0
    ensures Valid(m) && m.mode == Playing
    ensures m.player.score == s.player.score + |s.platforms|
      - |Survivors(s.platforms, FrameShift(s, inp), Multiplier(s.player.score))|
    ensures s.player.score <= m.player.score <= s.player.score + PoolSize
    ensures m.player.highScore == s.player.highScore
    ensures m.player.character == s.player.character
    ensures m.player.mult == Multiplier(s.player.score)
    ensures 0.0 <= m.player.x <= Width as real
    ensures s.player.rocketTimer >= 0 ==> m.player.rocketTimer >= 0
    ensures m.bullets == UpdateBullets(s.bullets, FrameShift(s, inp))
    ensures m.enemies == FramePool(s, inp, o, d).enemies
    ensures UpdateEnemies(s.enemies, FrameShift(s, inp), o.wobble) <= m.enemies
    ensures forall b :: b in m.boosters ==> b in FramePool(s, inp, o, d).boosters
    ensures var survivors := Survivors(s.platforms, FrameShift(s, inp), Multiplier(s.player.score));
      forall i :: 0 <= i < |survivors| ==> (m.platforms[i].active ==> survivors[i].active)
    ensures var p := Advanced(s, inp); var pool := FramePool(s, inp, o, d);
      p.vy > 0.0 && (exists i :: 0 <= i < |pool.platforms| && Lands(p.box, pool.platforms[i])) ==>
        m.player.vy < 0.0
    ensures var p := Advanced(s, inp); var pool := FramePool(s, inp, o, d);
      p.vy > 0.0 && FirstTouched(pool.boosters, p.box) < |pool.boosters| ==>
        m.player.rocketTimer == BoostFrames && |m.boosters| == |pool.boosters| - 1
    ensures var p := Advanced(s, inp); var pool := FramePool(s, inp, o, d);
      p.vy <= 0.0 || FirstTouched(pool.boosters, p.box) == |pool.boosters| ==>
        m.boosters == pool.boosters && m.player.rocketTimer == p.rocketTimer
    ensures var p := Advanced(s, inp); var pool := FramePool(s, inp, o, d);
      p.vy <= 0.0 ==> m.platforms == pool.platforms && m.player.vy == p.vy
    ensures var p := Advanced(s, inp); var pool := FramePool(s, inp, o, d);
      var l := Land(pool.platforms, p.box, p.vy, o.jumpScale);
      p.vy > 0.0 ==> m.platforms == l.platforms && m.player.vy == l.vy
  {
    var p1 := Advanced(s, inp);
    var shift := FrameShift(s, inp);
    var p2 := p1.(y := p1.y + shift);
    var bullets := UpdateBullets(s.bullets, shift);
    var recycled := FramePool(s, inp, o, d);
    var p3 := p2.(score := p2.score + recycled.count);
    assert p3.box == p1.box && p3.vy == p1.vy;
    var contact := Interact(p3, recycled.platforms, recycled.boosters, o.jumpScale);
    Session(Playing, contact.player, contact.platforms, contact.boosters, bullets, recycled.enemies)
  }

  /** Lines 298-318: an unboosted player touching an enemy, or a player below
      the screen, ends the game; then bullets and enemies destroy each other. */
  function Judge(m: Session): (r: Session)
    ensures r.mode == GameOver <==>
      (m.player.rocketTimer <= 0 && Touched(m.player.box, m.enemies)) || m.player.y > Height as real
    ensures r.mode == Playing || r.mode == GameOver
    ensures (r.bullets, r.enemies) == BulletsHit(m.bullets, m.enemies)
    ensures r.player == m.player && r.platforms == m.platforms && r.boosters == m.boosters
  {
    var caught := m.player.rocketTimer <= 0 && Touched(m.player.box, m.enemies);
    var (bullets, enemies) := BulletsHit(m.bullets, m.enemies);
    var mode := if caught || m.player.y > Height as real then GameOver else Playing;
    Session(mode, m.player, m.platforms, m.boosters, bullets, enemies)
  }

  /** One frame of play, after the presses (lines 265-318). */
  function Frame(s: Session, inp: Input, o: Oracle, d: Stream): (r: Session)
    requires s.mode == Playing && Valid(s) && Unit(d) && o.jumpScale > 0.0
    ensures Valid(r)
    ensures r.mode == Playing || r.mode == GameOver
    ensures r.player.score == s.player.score + |s.platforms|
      - |Survivors(s.platforms, FrameShift(s, inp), Multiplier(s.player.score))|
    ensures s.player.score <= r.player.score <= s.player.score + PoolSize
    ensures r.player.highScore == s.player.highScore
    ensures 0.0 <= r.player.x <= Width as real
    ensures r.player.y > Height as real ==> r.mode == GameOver
    ensures r.player.rocketTimer > 0 && r.player.y <= Height as real ==> r.mode == Playing
    ensures (r.bullets, r.enemies)
      == BulletsHit(UpdateBullets(s.bullets, FrameShift(s, inp)), FramePool(s, inp, o, d).enemies)
    ensures var survivors := Survivors(s.platforms, FrameShift(s, inp), Multiplier(s.player.score));
      forall i :: 0 <= i < |survivors| ==> (r.platforms[i].active ==> survivors[i].active)
    ensures var p := Advanced(s, inp); var pool := FramePool(s, inp, o, d);
      p.vy > 0.0 && (exists i :: 0 <= i < |pool.platforms| && Lands(p.box, pool.platforms[i])) ==>
        r.player.vy < 0.0
    ensures var p := Advanced(s, inp); var pool := FramePool(s, inp, o, d);
      p.vy > 0.0 && FirstTouched(pool.boosters, p.box) < |pool.boosters| ==>
        r.player.rocketTimer == BoostFrames
    ensures var p := Advanced(s, inp); var pool := FramePool(s, inp, o, d);
      var l := Land(pool.platforms, p.box, p.vy, o.jumpScale);
      p.vy > 0.0 ==> r.platforms == l.platforms && r.player.vy == l.vy
    ensures var p := Advanced(s, inp); var pool := FramePool(s, inp, o, d);
      p.vy <= 0.0 ==> r.platforms == pool.platforms && r.player.vy == p.vy
  {
    Judge(Play(s, inp, o, d))
  }

  /** While the rocket runs the player cannot be caught; without it any touch
      of an enemy present at the check ends the game. */
  lemma RocketProtects(s: Session, inp: Input, o: Oracle, d: Stream)
    requires s.mode == Playing && Valid(s) && Unit(d) && o.jumpScale > 0.0
    ensures var m := Play(s, inp, o, d);
      && (m.player.rocketTimer > 0 && m.player.y <= Height as real ==> Frame(s, inp, o, d).mode == Playing)
      && (m.player.rocketTimer <= 0 && Touched(m.player.box, m.enemies) ==>
            Frame(s, inp, o, d).mode == GameOver)
  {
  }

  /** One pass of the main loop: the queued presses first, then whatever the
      resulting mode does this frame. */
  function Step(s: Session, inp: Input, o: Oracle): (r: Session)
    requires Valid(s) && ValidOracle(o)
    ensures Valid(r)
    ensures r.player.highScore >= s.player.highScore
    ensures s.mode == Menu && inp.clicks == 0 ==> r == s
    ensures s.mode == GameOver && inp.clicks == 0 ==>
      r == s.(player := s.player.(highScore := Max(s.player.highScore, s.player.score)))
    ensures s.mode == Playing ==> r.mode != Menu && r.player.score >= s.player.score
    ensures s.mode == Playing ==>
      var survivors := Survivors(s.platforms, FrameShift(s, inp), Multiplier(s.player.score));
      forall i :: 0 <= i < |survivors| ==> (r.platforms[i].active ==> survivors[i].active)
  {
    var (t, d) := Clicks(s, inp.pointer, inp.clicks, o.draws);
    match t.mode
    case Menu => t
    case Playing => Frame(t, inp, o, d)
    case GameOver =>
      t.(player := t.player.(highScore := Max(t.player.highScore, t.player.score)))
  }
}

=== FILE: generator.dfy ===
/** The platform generator (main.py, `spawn_platform`, `reset_game`'s seeding
    and the recycling loop of the main loop, lines 207-223 and 278-284). */
module Generator {
  import opened Config
  import opened Geometry
  import opened Random
  import opened Platforms
  import opened Entities

  /** A platform as `spawn_platform` makes it: random kind, random column
      within the screen, standard width. */
  predicate Spawnable(p: Platform) {
    && WellFormed(p)
    && p.active
    && p.width == PlatformWidth
    && 0.0 <= p.x <= (Width - PlatformWidth) as real
  }

  datatype Spawned = Spawned(platform: Platform, boosters: seq<Booster>, rest: Stream)

  /** `spawn_platform(y)`: draws the kind, then the column, then builds the
      platform; a platform drawn with a booster gets a booster sprite 25 pixels
      above its top. */
  function Spawn(y: real, s: Stream): (r: Spawned)
    requires Unit(s)
    ensures Spawnable(r.platform) && r.platform.y == y
    ensures |s| > 0 ==> r.platform.kind == Classify(s[0])
    ensures |r.boosters| == (if r.platform.booster then 1 else 0)
    ensures forall b :: b in r.boosters ==> b.box.Bottom() <= y
    ensures Unit(r.rest) && |r.rest| <= |s|
  {
    var (u, s1) := Next(s);
    var kind := Classify(u);
    var (v, s2) := Next(s1);
    var x := RandInt(0, Width - PlatformWidth, v);
    var (p, s3) := Make(x, y, PlatformWidth, kind, s2);
    var boosters :=
      if p.booster then [Booster(CenteredAt((x + PlatformWidth / 2) as real, y - 25.0,
                                            BoosterWidth, BoosterHeight))]
      else [];
    Spawned(p, boosters, s3)
  }

  datatype Rows = Rows(platforms: seq<Platform>, boosters: seq<Booster>, rest: Stream)

  /** `n` spawned platforms, the first at `y` and each next one a gap higher. */
  function SeedRows(y: real, n: nat, s: Stream): (r: Rows)
    requires Unit(s)
    ensures |r.platforms| == n
    ensures forall i :: 0 <= i < n ==>
      Spawnable(r.platforms[i]) && r.platforms[i].y == y - (PlatformGap * i) as real
    ensures Unit(r.rest)
    decreases n
  {
    if n == 0 then Rows([], [], s)
    else
      var first := Spawn(y, s);
      var more := SeedRows(y - PlatformGap as real, n - 1, first.rest);
      Rows([first.platform] + more.platforms, first.boosters + more.boosters, more.rest)
  }

  /** The full-width platform under the starting position, then ten spawned ones. */
  function Seed(s: Stream): (r: Rows)
    requires Unit(s)
    ensures |r.platforms| == PoolSize
    ensures var base := r.platforms[0];
      && base.x == 0.0 && base.y == (Height - 20) as real && base.width == Width
      && base.kind == Normal && base.active && !base.spring
    ensures forall i :: 1 <= i < PoolSize ==>
      Spawnable(r.platforms[i])
      && r.platforms[i].y == (Height - 110 - PlatformGap * (i - 1)) as real
    ensures forall i :: 0 <= i < PoolSize ==> WellFormed(r.platforms[i]) && r.platforms[i].active
    ensures Unit(r.rest)
  {
    var (base, s1) := Make(0, (Height - 20) as real, Width, Normal, s);
    var rows := SeedRows((Height - 110) as real, PoolSize - 1, s1);
    Rows([base] + rows.platforms, rows.boosters, rows.rest)
  }

  /** The height of the highest platform (smallest y); `MinYIsHighest` states what it is. */
  function MinY(ps: seq<Platform>): real
    requires |ps| > 0
  {
    if |ps| == 1 then ps[0].y
    else
      var rest := MinY(ps[1..]);
      if ps[0].y <= rest then ps[0].y else rest
  }

  /** `MinY` is the y of some platform of `ps`, and no platform is higher. */
  lemma {:induction false} MinYIsHighest(ps: seq<Platform>)
    requires |ps| > 0
    ensures forall i :: 0 <= i < |ps| ==> MinY(ps) <= ps[i].y
    ensures exists i :: 0 <= i < |ps| && MinY(ps) == ps[i].y
  {
    if |ps| > 1 {
      MinYIsHighest(ps[1..]);
      assert forall i :: 1 <= i < |ps| ==> ps[i] == ps[1..][i - 1];
      if ps[0].y > MinY(ps[1..]) {
        var j :| 0 <= j < |ps[1..]| && MinY(ps[1..]) == ps[1..][j].y;
        assert MinY(ps) == ps[j + 1].y;
      } else {
        assert MinY(ps) == ps[0].y;
      }
    } else {
      assert MinY(ps) == ps[0].y;
    }
  }

  /** The platforms of `ps` that are still on screen after this frame's move, in order. */
  function Survivors(ps: seq<Platform>, shift: real, mult: real): (r: seq<Platform>)
    ensures |r| <= |ps|
  {
    if |ps| == 0 then []
    else
      var q := Move(ps[0], shift, mult);
      var rest := Survivors(ps[1..], shift, mult);
      if q.y > Height as real then rest else [q] + rest
  }

  /** The survivors are exactly the moved platforms still on screen. */
  lemma {:induction false} SurvivorsExact(ps: seq<Platform>, shift: real, mult: real)
    ensures forall q :: q in Survivors(ps, shift, mult) ==> q.y <= Height as real
    ensures forall i :: 0 <= i < |ps| && Move(ps[i], shift, mult).y <= Height as real ==>
      Move(ps[i], shift, mult) in Survivors(ps, shift, mult)
    ensures forall q :: q in Survivors(ps, shift, mult) ==>
      exists i :: 0 <= i < |ps| && q == Move(ps[i], shift, mult)
  {
    if |ps| > 0 {
      SurvivorsExact(ps[1..], shift, mult);
      assert forall i :: 1 <= i < |ps| ==> ps[i] == ps[1..][i - 1];
    }
  }

  /** The platforms of `ps` after this frame's move, before anything is removed. */
  function Moved(ps: seq<Platform>, shift: real, mult: real): (r: seq<Platform>)
    ensures |r| == |ps|
  {
    if |ps| == 0 then [] else [Move(ps[0], shift, mult)] + Moved(ps[1..], shift, mult)
  }

  /** `Moved` moves each platform in place. */
  lemma {:induction false} MovedAt(ps: seq<Platform>, shift: real, mult: real)
    ensures forall i :: 0 <= i < |ps| ==> Moved(ps, shift, mult)[i] == Move(ps[i], shift, mult)
  {
    if |ps| > 0 {
      MovedAt(ps[1..], shift, mult);
      assert forall i :: 1 <= i < |ps| ==> ps[i] == ps[1..][i - 1];
    }
  }

  /** Index of the first platform this frame's move drops below the screen,
      or |ps| when every platform stays. */
  function FirstDrop(ps: seq<Platform>, shift: real, mult: real): (k: nat)
    ensures k <= |ps|
    ensures forall i :: 0 <= i < k ==> Move(ps[i], shift, mult).y <= Height as real
    ensures k < |ps| ==> Move(ps[k], shift, mult).y > Height as real
  {
    if |ps| == 0 then 0
    else if Move(ps[0], shift, mult).y > Height as real then 0
    else
      assert forall i :: 1 <= i < |ps| ==> ps[i] == ps[1..][i - 1];
      1 + FirstDrop(ps[1..], shift, mult)
  }

  /** A pass that drops a platform keeps fewer than it visited. */
  lemma {:induction false} DropShrinks(ps: seq<Platform>, shift: real, mult: real)
    requires FirstDrop(ps, shift, mult) < |ps|
    ensures |Survivors(ps, shift, mult)| < |ps|
  {
    if Move(ps[0], shift, mult).y <= Height as real {
      assert forall i :: 1 <= i < |ps| ==> ps[i] == ps[1..][i - 1];
      DropShrinks(ps[1..], shift, mult);
    }
  }

  datatype Recycled = Recycled(
    platforms: seq<Platform>, boosters: seq<Booster>, enemies: seq<Enemy>,
    count: nat, rest: Stream)

  /** Every platform in `added` lies at least a gap above every platform in `others`. */
  predicate Above(added: seq<Platform>, others: seq<Platform>) {
    forall i, j :: 0 <= i < |added| && 0 <= j < |others| ==>
      added[i].y + PlatformGap as real <= others[j].y
  }

  /** Each platform of `added` lies at least a gap above every earlier one. */
  predicate Stacked(added: seq<Platform>) {
    forall i, j :: 0 <= j < i < |added| ==> added[i].y + PlatformGap as real <= added[j].y
  }

  /** The recycling loop over a snapshot of the pool. `todo` is the part of the
      snapshot not yet visited; the live list is `kept + todo + added`, where
      `kept` holds the visited platforms that stayed and `added` the ones
      spawned so far. A visited platform that has dropped below the screen is
      removed and replaced by a spawn one gap above the highest platform left
      in the live list; the replacement counts one point and may bring an enemy. */
  function RecycleFrom(
    todo: seq<Platform>, kept: seq<Platform>, added: seq<Platform>,
    boosters: seq<Booster>, enemies: seq<Enemy>, count: nat,
    shift: real, mult: real, s: Stream): (r: Recycled)
    requires Unit(s)
    requires |kept| + |todo| + |added| >= 2
    ensures |r.platforms| == |kept| + |todo| + |added|
    ensures r.count == count + |todo| - |Survivors(todo, shift, mult)|
    ensures boosters <= r.boosters
    ensures enemies <= r.enemies
    ensures |r.boosters| - |boosters| <= r.count - count
    ensures |r.enemies| - |enemies| <= r.count - count
    ensures forall i :: |enemies| <= i < |r.enemies| ==> r.enemies[i].y == EnemySpawnY
    ensures Unit(r.rest)
    decreases |todo|
  {
    if |todo| == 0 then
      Recycled(kept + added, boosters, enemies, count, s)
    else
      var q := Move(todo[0], shift, mult);
      if q.y > Height as real then
        var spawned := Spawn(MinY(kept + todo[1..] + added) - PlatformGap as real, s);
        var (newEnemies, s1) := MaybeEnemy(spawned.rest);
        RecycleFrom(todo[1..], kept, added + [spawned.platform],
                    boosters + spawned.boosters, enemies + newEnemies, count + 1,
                    shift, mult, s1)
      else
        RecycleFrom(todo[1..], kept + [q], added, boosters, enemies, count, shift, mult, s)
  }

  /** One step of the loop when the visited platform drops. */
  lemma UnfoldAtDrop(
    todo: seq<Platform>, kept: seq<Platform>, added: seq<Platform>,
    boosters: seq<Booster>, enemies: seq<Enemy>, count: nat,
    shift: real, mult: real, s: Stream)
    requires Unit(s)
    requires |kept| + |todo| + |added| >= 2
    requires |todo| > 0 && Move(todo[0], shift, mult).y > Height as real
    ensures var spawned := Spawn(MinY(kept + todo[1..] + added) - PlatformGap as real, s);
      var (newEnemies, s1) := MaybeEnemy(spawned.rest);
      RecycleFrom(todo, kept, added, boosters, enemies, count, shift, mult, s)
      == RecycleFrom(todo[1..], kept, added + [spawned.platform],
                     boosters + spawned.boosters, enemies + newEnemies, count + 1,
                     shift, mult, s1)
  {
  }

  /** One step of the loop when the visited platform stays. */
  lemma UnfoldAfterKeep(
    todo: seq<Platform>, kept: seq<Platform>, added: seq<Platform>,
    boosters: seq<Booster>, enemies: seq<Enemy>, count: nat,
    shift: real, mult: real, s: Stream)
    requires Unit(s)
    requires |kept| + |todo| + |added| >= 2
    requires |todo| > 0 && Move(todo[0], shift, mult).y <= Height as real
    ensures RecycleFrom(todo, kept, added, boosters, enemies, count, shift, mult, s)
      == RecycleFrom(todo[1..], kept + [Move(todo[0], shift, mult)], added,
                     boosters, enemies, count, shift, mult, s)
  {
  }

  /** A visited platform that stays keeps every spawned platform a gap above it,
      since the camera only pushes platforms down. */
  lemma KeepStaysBelow(kept: seq<Platform>, todo: seq<Platform>, added: seq<Platform>,
                       shift: real, mult: real)
    requires |todo| > 0 && shift >= 0.0
    requires Above(added, kept) && Above(added, todo)
    ensures Above(added, kept + [Move(todo[0], shift, mult)])
    ensures Above(added, todo[1..])
  {
  }

  /** From index `start` on, each platform of `ps` lies exactly one gap above
      the one before it. */
  predicate ChainedFrom(ps: seq<Platform>, start: nat) {
    forall i :: start < i < |ps| ==> ps[i].y == ps[i - 1].y - PlatformGap as real
  }

  /** `ps` starts with `prefix`; every platform after it was spawned and lies a
      gap above every platform before it. */
  predicate Layout(ps: seq<Platform>, prefix: seq<Platform>) {
    && |prefix| <= |ps|
    && ps[..|prefix|] == prefix
    && (forall i :: |prefix| <= i < |ps| ==> Spawnable(ps[i]))
    && (forall i, j :: 0 <= j < i < |ps| && |prefix| <= i ==>
          ps[i].y + PlatformGap as real <= ps[j].y)
  }

  /** When the loop ends the live list is the kept platforms followed by the spawned ones. */
  lemma FinalLayout(kept: seq<Platform>, added: seq<Platform>)
    requires Above(added, kept) && Stacked(added)
    requires forall i :: 0 <= i < |added| ==> Spawnable(added[i])
    ensures Layout(kept + added, kept)
  {
  }

  /** What the recycling loop leaves behind: the survivors in their old order,
      then the spawned platforms, each a gap above everything before it. */
  lemma {:induction false} RecycleFromLayout(
    todo: seq<Platform>, kept: seq<Platform>, added: seq<Platform>,
    boosters: seq<Booster>, enemies: seq<Enemy>, count: nat,
    shift: real, mult: real, s: Stream)
    requires Unit(s)
    requires |kept| + |todo| + |added| >= 2
    requires shift >= 0.0
    requires Above(added, kept) && Above(added, todo) && Stacked(added)
    requires forall i :: 0 <= i < |added| ==> Spawnable(added[i])
    ensures Layout(RecycleFrom(todo, kept, added, boosters, enemies, count, shift, mult, s).platforms,
                   kept + Survivors(todo, shift, mult))
    decreases |todo|, 1
  {
    if |todo| == 0 {
      FinalLayout(kept, added);
      assert kept + Survivors(todo, shift, mult) == kept;
    } else if Move(todo[0], shift, mult).y > Height as real {
      LayoutAtDrop(todo, kept, added, boosters, enemies, count, shift, mult, s);
    } else {
      LayoutAfterKeep(todo, kept, added, boosters, enemies, count, shift, mult, s);
    }
  }

  /** `RecycleFromLayout` when the visited platform drops. */
  lemma {:induction false} LayoutAtDrop(
    todo: seq<Platform>, kept: seq<Platform>, added: seq<Platform>,
    boosters: seq<Booster>, enemies: seq<Enemy>, count: nat,
    shift: real, mult: real, s: Stream)
    requires Unit(s)
    requires |kept| + |todo| + |added| >= 2
    requires shift >= 0.0
    requires Above(added, kept) && Above(added, todo) && Stacked(added)
    requires forall i :: 0 <= i < |added| ==> Spawnable(added[i])
    requires |todo| > 0 && Move(todo[0], shift, mult).y > Height as real
    ensures Layout(RecycleFrom(todo, kept, added, boosters, enemies, count, shift, mult, s).platforms,
                   kept + Survivors(todo, shift, mult))
    decreases |todo|, 0
  {
    var spawned := Spawn(MinY(kept + todo[1..] + added) - PlatformGap as real, s);
    var (newEnemies, s1) := MaybeEnemy(spawned.rest);
    SpawnStaysAbove(kept, todo[1..], added, spawned.platform);
    RecycleFromLayout(todo[1..], kept, added + [spawned.platform],
                      boosters + spawned.boosters, enemies + newEnemies, count + 1,
                      shift, mult, s1);
    assert Survivors(todo, shift, mult) == Survivors(todo[1..], shift, mult);
  }

  /** `RecycleFromLayout` when the visited platform stays. */
  lemma {:induction false} LayoutAfterKeep(
    todo: seq<Platform>, kept: seq<Platform>, added: seq<Platform>,
    boosters: seq<Booster>, enemies: seq<Enemy>, count: nat,
    shift: real, mult: real, s: Stream)
    requires Unit(s)
    requires |kept| + |todo| + |added| >= 2
    requires shift >= 0.0
    requires Above(added, kept) && Above(added, todo) && Stacked(added)
    requires forall i :: 0 <= i < |added| ==> Spawnable(added[i])
    requires |todo| > 0 && Move(todo[0], shift, mult).y <= Height as real
    ensures Layout(RecycleFrom(todo, kept, added, boosters, enemies, count, shift, mult, s).platforms,
                   kept + Survivors(todo, shift, mult))
    decreases |todo|, 0
  {
    var q := Move(todo[0], shift, mult);
    KeepStaysBelow(kept, todo, added, shift, mult);
    RecycleFromLayout(todo[1..], kept + [q], added, boosters, enemies, count, shift, mult, s);
    assert kept + [q] + Survivors(todo[1..], shift, mult)
        == kept + Survivors(todo, shift, mult);
  }

  /** Once something has been spawned, the highest platform in the live list is
      the latest spawn. */
  lemma MinYIsLastAdded(kept: seq<Platform>, todo: seq<Platform>, added: seq<Platform>)
    requires |added| > 0
    requires Above(added, kept) && Above(added, todo) && Stacked(added)
    ensures MinY(kept + todo + added) == added[|added| - 1].y
  {
    var live := kept + todo + added;
    var last := added[|added| - 1];
    assert live[|live| - 1] == last;
    forall j | 0 <= j < |live|
      ensures last.y <= live[j].y
    {
      if j < |kept| {
        assert live[j] == kept[j];
      } else if j < |kept| + |todo| {
        assert live[j] == todo[j - |kept|];
      } else {
        assert live[j] == added[j - |kept| - |todo|];
      }
    }
    MinYIsHighest(live);
  }

  /** The loop keeps what it was given in place: the kept platforms, then the
      survivors of the unvisited part in order, then the platforms spawned so
      far; new spawns only follow them. */
  lemma {:induction false} RecycleFromPrefix(
    todo: seq<Platform>, kept: seq<Platform>, added: seq<Platform>,
    boosters: seq<Booster>, enemies: seq<Enemy>, count: nat,
    shift: real, mult: real, s: Stream)
    requires Unit(s)
    requires |kept| + |todo| + |added| >= 2
    ensures kept + Survivors(todo, shift, mult) + added
      <= RecycleFrom(todo, kept, added, boosters, enemies, count, shift, mult, s).platforms
    decreases |todo|
  {
    if |todo| == 0 {
      assert kept + Survivors(todo, shift, mult) + added == kept + added;
    } else {
      var q := Move(todo[0], shift, mult);
      if q.y > Height as real {
        var spawned := Spawn(MinY(kept + todo[1..] + added) - PlatformGap as real, s);
        var (newEnemies, s1) := MaybeEnemy(spawned.rest);
        RecycleFromPrefix(todo[1..], kept, added + [spawned.platform],
                          boosters + spawned.boosters, enemies + newEnemies, count + 1,
                          shift, mult, s1);
        assert kept + Survivors(todo, shift, mult) + added + [spawned.platform]
            == kept + Survivors(todo[1..], shift, mult) + (added + [spawned.platform]);
      } else {
        RecycleFromPrefix(todo[1..], kept + [q], added, boosters, enemies, count, shift, mult, s);
        assert Survivors(todo, shift, mult) == [q] + Survivors(todo[1..], shift, mult);
        Regroup(kept, q, Survivors(todo[1..], shift, mult), added);
      }
    }
  }

  /** Every spawn lies exactly one gap above the spawn before it: once a
      replacement exists it is the highest live platform. */
  lemma {:induction false} RecycleFromChain(
    todo: seq<Platform>, kept: seq<Platform>, added: seq<Platform>,
    boosters: seq<Booster>, enemies: seq<Enemy>, count: nat,
    shift: real, mult: real, s: Stream)
    requires Unit(s)
    requires |kept| + |todo| + |added| >= 2
    requires shift >= 0.0
    requires Above(added, kept) && Above(added, todo) && Stacked(added)
    requires forall i :: 0 <= i < |added| ==> Spawnable(added[i])
    requires ChainedFrom(added, 0)
    ensures ChainedFrom(RecycleFrom(todo, kept, added, boosters, enemies, count, shift, mult, s).platforms,
                        |kept| + |Survivors(todo, shift, mult)|)
    decreases |todo|, 1
  {
    if |todo| == 0 {
      var ps := RecycleFrom(todo, kept, added, boosters, enemies, count, shift, mult, s).platforms;
      assert ps == kept + added;
      assert forall i :: |kept| <= i < |ps| ==> ps[i] == added[i - |kept|];
    } else if Move(todo[0], shift, mult).y > Height as real {
      ChainAtDrop(todo, kept, added, boosters, enemies, count, shift, mult, s);
    } else {
      ChainAfterKeep(todo, kept, added, boosters, enemies, count, shift, mult, s);
    }
  }

  /** `RecycleFromChain` when the visited platform drops. */
  lemma {:induction false} ChainAtDrop(
    todo: seq<Platform>, kept: seq<Platform>, added: seq<Platform>,
    boosters: seq<Booster>, enemies: seq<Enemy>, count: nat,
    shift: real, mult: real, s: Stream)
    requires Unit(s)
    requires |kept| + |todo| + |added| >= 2
    requires shift >= 0.0
    requires Above(added, kept) && Above(added, todo) && Stacked(added)
    requires forall i :: 0 <= i < |added| ==> Spawnable(added[i])
    requires ChainedFrom(added, 0)
    requires |todo| > 0 && Move(todo[0], shift, mult).y > Height as real
    ensures ChainedFrom(RecycleFrom(todo, kept, added, boosters, enemies, count, shift, mult, s).platforms,
                        |kept| + |Survivors(todo, shift, mult)|)
    decreases |todo|, 0
  {
    var spawned := Spawn(MinY(kept + todo[1..] + added) - PlatformGap as real, s);
    var p := spawned.platform;
    var (newEnemies, s1) := MaybeEnemy(spawned.rest);
    var r1 := RecycleFrom(todo[1..], kept, added + [p],
                          boosters + spawned.boosters, enemies + newEnemies, count + 1,
                          shift, mult, s1);
    var n := |kept| + |Survivors(todo[1..], shift, mult)|;
    assert ChainedFrom(r1.platforms, n) by {
      SpawnStaysAbove(kept, todo[1..], added, p);
      assert ChainedFrom(added + [p], 0) by {
        if |added| > 0 {
          MinYIsLastAdded(kept, todo[1..], added);
        }
      }
      RecycleFromChain(todo[1..], kept, added + [p],
                       boosters + spawned.boosters, enemies + newEnemies, count + 1,
                       shift, mult, s1);
    }
    assert RecycleFrom(todo, kept, added, boosters, enemies, count, shift, mult, s) == r1 by {
      UnfoldAtDrop(todo, kept, added, boosters, enemies, count, shift, mult, s);
    }
    assert n == |kept| + |Survivors(todo, shift, mult)| by {
      assert Survivors(todo, shift, mult) == Survivors(todo[1..], shift, mult);
    }
  }

  /** `RecycleFromChain` when the visited platform stays. */
  lemma {:induction false} ChainAfterKeep(
    todo: seq<Platform>, kept: seq<Platform>, added: seq<Platform>,
    boosters: seq<Booster>, enemies: seq<Enemy>, count: nat,
    shift: real, mult: real, s: Stream)
    requires Unit(s)
    requires |kept| + |todo| + |added| >= 2
    requires shift >= 0.0
    requires Above(added, kept) && Above(added, todo) && Stacked(added)
    requires forall i :: 0 <= i < |added| ==> Spawnable(added[i])
    requires ChainedFrom(added, 0)
    requires |todo| > 0 && Move(todo[0], shift, mult).y <= Height as real
    ensures ChainedFrom(RecycleFrom(todo, kept, added, boosters, enemies, count, shift, mult, s).platforms,
                        |kept| + |Survivors(todo, shift, mult)|)
    decreases |todo|, 0
  {
    var q := Move(todo[0], shift, mult);
    KeepStaysBelow(kept, todo, added, shift, mult);
    RecycleFromChain(todo[1..], kept + [q], added, boosters, enemies, count, shift, mult, s);
    assert Survivors(todo, shift, mult) == [q] + Survivors(todo[1..], shift, mult);
  }

  /** The next replacement lies exactly one gap above the highest platform in
      the live list at that moment: the kept platforms, the unvisited ones
      already passed over (moved, since they stayed), the rest of the unvisited
      ones (not yet moved) and the platforms spawned so far. `k` is the index
      of the first unvisited platform that drops. */
  lemma {:induction false} RecycleFromNextPlaced(
    todo: seq<Platform>, kept: seq<Platform>, added: seq<Platform>,
    boosters: seq<Booster>, enemies: seq<Enemy>, count: nat,
    shift: real, mult: real, s: Stream, k: nat)
    requires Unit(s)
    requires |kept| + |todo| + |added| >= 2
    requires k == FirstDrop(todo, shift, mult)
    ensures k < |todo| ==>
      && |Survivors(todo, shift, mult)| < |todo|
      && RecycleFrom(todo, kept, added, boosters, enemies, count, shift, mult, s)
           .platforms[|kept| + |Survivors(todo, shift, mult)| + |added|].y
         == MinY(kept + Moved(todo[..k], shift, mult) + todo[k + 1..] + added) - PlatformGap as real
    decreases |todo|, 1
  {
    if k < |todo| {
      if Move(todo[0], shift, mult).y > Height as real {
        PlacedAtDrop(todo, kept, added, boosters, enemies, count, shift, mult, s, k);
      } else {
        PlacedAfterKeep(todo, kept, added, boosters, enemies, count, shift, mult, s, k);
      }
    }
  }

  /** `RecycleFromNextPlaced` when the visited platform is the one that drops. */
  lemma {:induction false} PlacedAtDrop(
    todo: seq<Platform>, kept: seq<Platform>, added: seq<Platform>,
    boosters: seq<Booster>, enemies: seq<Enemy>, count: nat,
    shift: real, mult: real, s: Stream, k: nat)
    requires Unit(s)
    requires |kept| + |todo| + |added| >= 2
    requires k == FirstDrop(todo, shift, mult)
    requires |todo| > 0 && Move(todo[0], shift, mult).y > Height as real
    ensures k < |todo| ==>
      && |Survivors(todo, shift, mult)| < |todo|
      && RecycleFrom(todo, kept, added, boosters, enemies, count, shift, mult, s)
           .platforms[|kept| + |Survivors(todo, shift, mult)| + |added|].y
         == MinY(kept + Moved(todo[..k], shift, mult) + todo[k + 1..] + added) - PlatformGap as real
    decreases |todo|, 0
  {
    DropShrinks(todo, shift, mult);
    var spawned := Spawn(MinY(kept + todo[1..] + added) - PlatformGap as real, s);
    var p := spawned.platform;
    var (newEnemies, s1) := MaybeEnemy(spawned.rest);
    var r := RecycleFrom(todo[1..], kept, added + [p],
                         boosters + spawned.boosters, enemies + newEnemies, count + 1,
                         shift, mult, s1);
    UnfoldAtDrop(todo, kept, added, boosters, enemies, count, shift, mult, s);
    var n := |kept| + |Survivors(todo[1..], shift, mult)| + |added|;
    assert n < |r.platforms| && r.platforms[n] == p by {
      RecycleFromPrefix(todo[1..], kept, added + [p],
                        boosters + spawned.boosters, enemies + newEnemies, count + 1,
                        shift, mult, s1);
      assert (kept + Survivors(todo[1..], shift, mult) + (added + [p]))[n] == p;
    }
    assert n == |kept| + |Survivors(todo, shift, mult)| + |added| by {
      assert Survivors(todo, shift, mult) == Survivors(todo[1..], shift, mult);
    }
    assert kept + Moved(todo[..k], shift, mult) + todo[k + 1..] + added == kept + todo[1..] + added by {
      assert k == 0;
      assert Moved(todo[..k], shift, mult) == [];
      DropEmpty(kept, Moved(todo[..k], shift, mult), todo[1..], added);
    }
  }

  /** `RecycleFromNextPlaced` when the visited platform stays. */
  lemma {:induction false} PlacedAfterKeep(
    todo: seq<Platform>, kept: seq<Platform>, added: seq<Platform>,
    boosters: seq<Booster>, enemies: seq<Enemy>, count: nat,
    shift: real, mult: real, s: Stream, k: nat)
    requires Unit(s)
    requires |kept| + |todo| + |added| >= 2
    requires k == FirstDrop(todo, shift, mult)
    requires |todo| > 0 && Move(todo[0], shift, mult).y <= Height as real
    ensures k < |todo| ==>
      && |Survivors(todo, shift, mult)| < |todo|
      && RecycleFrom(todo, kept, added, boosters, enemies, count, shift, mult, s)
           .platforms[|kept| + |Survivors(todo, shift, mult)| + |added|].y
         == MinY(kept + Moved(todo[..k], shift, mult) + todo[k + 1..] + added) - PlatformGap as real
    decreases |todo|, 0
  {
    if k < |todo| {
      var q := Move(todo[0], shift, mult);
      var kk := kept + [q];
      var tt := todo[1..];
      var k1 := FirstDrop(tt, shift, mult);
      assert k1 == k - 1;
      var r := RecycleFrom(tt, kk, added, boosters, enemies, count, shift, mult, s);
      var live := kk + Moved(tt[..k1], shift, mult) + tt[k1 + 1..] + added;
      var n := |kk| + |Survivors(tt, shift, mult)| + |added|;
      assert n < |r.platforms| && r.platforms[n].y == MinY(live) - PlatformGap as real by {
        RecycleFromNextPlaced(tt, kk, added, boosters, enemies, count, shift, mult, s, k1);
      }
      assert live == kept + Moved(todo[..k], shift, mult) + todo[k + 1..] + added by {
        MovedStep(todo, k, shift, mult);
        assert tt[k1 + 1..] == todo[k + 1..];
        Regroup(kept, q, Moved(tt[..k1], shift, mult), todo[k + 1..]);
      }
      assert n == |kept| + |Survivors(todo, shift, mult)| + |added| by {
        assert Survivors(todo, shift, mult) == [q] + Survivors(tt, shift, mult);
      }
      UnfoldAfterKeep(todo, kept, added, boosters, enemies, count, shift, mult, s);
      DropShrinks(todo, shift, mult);
    } else {
      assert !(k < |todo|);
    }
  }

  /** Moving a non-empty prefix moves its head, then the rest. */
  lemma MovedStep(ps: seq<Platform>, k: nat, shift: real, mult: real)
    requires 0 < k <= |ps|
    ensures Moved(ps[..k], shift, mult) == [Move(ps[0], shift, mult)] + Moved(ps[1..][..k - 1], shift, mult)
  {
    assert ps[..k][1..] == ps[1..][..k - 1];
  }

  /** Sequence regrouping steps. */
  lemma DropEmpty<T>(a: seq<T>, e: seq<T>, b: seq<T>, c: seq<T>)
    requires e == []
    ensures a + e + b + c == a + b + c
  {
  }

  lemma Regroup<T>(a: seq<T>, x: T, b: seq<T>, c: seq<T>)
    ensures a + [x] + b + c == a + ([x] + b) + c
  {
  }

  /** `if random.random() > 0.95: enemies.add(Enemy(-100))`; the enemy draws its
      column and then its wobble phase, which is not modelled. */
  function MaybeEnemy(s: Stream): (r: (seq<Enemy>, Stream))
    requires Unit(s)
    ensures |r.0| <= 1
    ensures |s| > 0 ==> (|r.0| == 1 <==> s[0] > 0.95)
    ensures |s| == 0 ==> r.0 == []
    ensures forall e :: e in r.0 ==> e.y == EnemySpawnY && 50.0 <= e.x <= (Width - 50) as real
    ensures Unit(r.1)
  {
    var (u, s1) := Next(s);
    if u > 0.95 then
      var (v, s2) := Next(s1);
      var (_, s3) := Next(s2);
      ([NewEnemy(RandInt(50, Width - 50, v))], s3)
    else ([], s1)
  }

  /** A platform spawned a gap above the highest one in the live list keeps the
      spawned platforms above everything else and stacked. */
  lemma SpawnStaysAbove(kept: seq<Platform>, todo: seq<Platform>, added: seq<Platform>, p: Platform)
    requires |kept + todo + added| > 0
    requires p.y == MinY(kept + todo + added) - PlatformGap as real
    requires Above(added, kept) && Above(added, todo) && Stacked(added)
    requires Spawnable(p) && forall i :: 0 <= i < |added| ==> Spawnable(added[i])
    ensures Above(added + [p], kept) && Above(added + [p], todo) && Stacked(added + [p])
    ensures forall i :: 0 <= i < |added + [p]| ==> Spawnable((added + [p])[i])
  {
    var live := kept + todo + added;
    MinYIsHighest(live);
    assert forall j :: 0 <= j < |kept| ==> kept[j] == live[j];
    assert forall j :: 0 <= j < |todo| ==> todo[j] == live[|kept| + j];
    assert forall j :: 0 <= j < |added| ==> added[j] == live[|kept| + |todo| + j];
  }

  /** One frame of recycling over the whole pool. */
  function Recycle(ps: seq<Platform>, shift: real, mult: real,
                   boosters: seq<Booster>, enemies: seq<Enemy>, s: Stream): (r: Recycled)
    requires Unit(s)
    requires |ps| >= 2
    requires shift >= 0.0
    ensures |r.platforms| == |ps|
    ensures r.count == |ps| - |Survivors(ps, shift, mult)|
    ensures Layout(r.platforms, Survivors(ps, shift, mult))
    ensures ChainedFrom(r.platforms, |Survivors(ps, shift, mult)|)
    ensures var k := FirstDrop(ps, shift, mult);
      k < |ps| ==>
        && |Survivors(ps, shift, mult)| < |ps|
        && r.platforms[|Survivors(ps, shift, mult)|].y
           == MinY(Moved(ps[..k], shift, mult) + ps[k + 1..]) - PlatformGap as real
    ensures boosters <= r.boosters
    ensures enemies <= r.enemies
    ensures |r.boosters| - |boosters| <= r.count
    ensures |r.enemies| - |enemies| <= r.count
    ensures forall i :: |enemies| <= i < |r.enemies| ==> r.enemies[i].y == EnemySpawnY
    ensures Unit(r.rest)
  {
    RecycleLayout(ps, shift, mult, boosters, enemies, s);
    RecycleChain(ps, shift, mult, boosters, enemies, s);
    RecycleFirstPlaced(ps, shift, mult, boosters, enemies, s);
    RecycleFrom(ps, [], [], boosters, enemies, 0, shift, mult, s)
  }

  /** `Recycle`'s layout: survivors first, then spawns above them. */
  lemma RecycleLayout(ps: seq<Platform>, shift: real, mult: real,
                    boosters: seq<Booster>, enemies: seq<Enemy>, s: Stream)
    requires Unit(s)
    requires |ps| >= 2
    requires shift >= 0.0
    ensures Layout(RecycleFrom(ps, [], [], boosters, enemies, 0, shift, mult, s).platforms, Survivors(ps, shift, mult))
  {
    RecycleFromLayout(ps, [], [], boosters, enemies, 0, shift, mult, s);
    assert [] + Survivors(ps, shift, mult) == Survivors(ps, shift, mult);
  }

  /** `Recycle`'s spawns: each a gap above the one before. */
  lemma RecycleChain(ps: seq<Platform>, shift: real, mult: real,
                    boosters: seq<Booster>, enemies: seq<Enemy>, s: Stream)
    requires Unit(s)
    requires |ps| >= 2
    requires shift >= 0.0
    ensures ChainedFrom(RecycleFrom(ps, [], [], boosters, enemies, 0, shift, mult, s).platforms, |Survivors(ps, shift, mult)|)
  {
    RecycleFromChain(ps, [], [], boosters, enemies, 0, shift, mult, s);
  }

  /** `Recycle`'s first spawn: a gap above the highest platform live when the
      first drop is met. */
  lemma RecycleFirstPlaced(ps: seq<Platform>, shift: real, mult: real,
                    boosters: seq<Booster>, enemies: seq<Enemy>, s: Stream)
    requires Unit(s)
    requires |ps| >= 2
    requires shift >= 0.0
    ensures var k := FirstDrop(ps, shift, mult);
      k < |ps| ==>
        && |Survivors(ps, shift, mult)| < |ps|
        && RecycleFrom(ps, [], [], boosters, enemies, 0, shift, mult, s).platforms[|Survivors(ps, shift, mult)|].y
           == MinY(Moved(ps[..k], shift, mult) + ps[k + 1..]) - PlatformGap as real
  {
    var k := FirstDrop(ps, shift, mult);
    RecycleFromNextPlaced(ps, [], [], boosters, enemies, 0, shift, mult, s, k);
    if k < |ps| {
      var none: seq<Platform> := [];
      assert RecycleFrom(ps, [], [], boosters, enemies, 0, shift, mult, s).platforms[|none| + |Survivors(ps, shift, mult)| + |none|].y
          == MinY(none + Moved(ps[..k], shift, mult) + ps[k + 1..] + none) - PlatformGap as real;
      UnwrapEmpty(Moved(ps[..k], shift, mult), ps[k + 1..]);
    }
  }

  /** Sequence regrouping step. */
  lemma UnwrapEmpty<T>(a: seq<T>, b: seq<T>)
    ensures [] + a + b + [] == a + b
  {
  }
}

=== FILE: geometry.dfy ===
/** Axis-aligned boxes with pygame's `Rect` collision rules, over exact reals. */
module Geometry {

  /** A sampled pointer position, in whole pixels. */
  datatype Point = Point(x: int, y: int)

  datatype Box = Box(left: real, top: real, width: real, height: real) {

    function Right(): real { left + width }

    function Bottom(): real { top + height }

    /** `Rect.collidepoint`: the left and top edges are inside, the right and bottom ones are not. */
    predicate Contains(p: Point) {
      left <= p.x as real < Right() && top <= p.y as real < Bottom()
    }

    function Shifted(dy: real): (b: Box)
      ensures b.left == left && b.top == top + dy && b.width == width && b.height == height
    {
      this.(top := top + dy)
    }
  }

  /** `Rect.colliderect`: strict overlap of the two open interiors. */
  predicate Overlaps(a: Box, b: Box) {
    a.left < b.Right() && b.left < a.Right() && a.top < b.Bottom() && b.top < a.Bottom()
  }

  /** A `w` by `h` box whose centre is placed at (cx, cy) the way pygame does it
      (half sizes rounded down). */
  function CenteredAt(cx: real, cy: real, w: int, h: int): (b: Box)
    requires w > 0 && h > 0
    ensures b.width == w as real && b.height == h as real
    ensures b.left <= cx < b.Right() && b.top <= cy < b.Bottom()
  {
    Box(cx - (w / 2) as real, cy - (h / 2) as real, w as real, h as real)
  }

  /** A box whose top edge is centred on (x, y). */
  function MidTopAt(x: real, y: real, w: int, h: int): (b: Box)
    requires w > 0 && h > 0
    ensures b.top == y && b.Bottom() == y + h as real
    ensures b.left <= x < b.Right()
  {
    Box(x - (w / 2) as real, y, w as real, h as real)
  }

  /** A box whose bottom edge is centred on (x, y). */
  function MidBottomAt(x: real, y: real, w: int, h: int): (b: Box)
    requires w > 0 && h > 0
    ensures b.Bottom() == y && b.top == y - h as real
    ensures b.left <= x < b.Right()
  {
    Box(x - (w / 2) as real, y - h as real, w as real, h as real)
  }
}

=== FILE: platforms.dfy ===
/** Platforms: kinds, construction flags and per-frame movement
    (main.py, `Platform.__init__` and `Platform.update`, and the kind draw of
    `spawn_platform`). */
module Platforms {
  import opened Config
  import opened Geometry
  import opened Random

  datatype Kind = Normal | Moving | Breakable

  /** `active` turns false once a breakable platform has been landed on. */
  datatype Platform = Platform(
    x: real, y: real, width: int,
    kind: Kind,
    speed: int,
    spring: bool,
    booster: bool,
    active: bool)
  {
    function Box(): Box {
      Geometry.Box(x, y, width as real, PlatformHeight as real)
    }
  }

  /** What construction guarantees and nothing afterwards undoes: modifiers
      only on normal platforms, springs only on narrow ones, speed ±2. */
  predicate WellFormed(p: Platform) {
    && p.width > 0
    && (p.speed == -2 || p.speed == 2)
    && (p.spring ==> p.kind == Normal && p.width < 100)
    && (p.booster ==> p.kind == Normal)
  }

  /** The kind drawn for a new platform from one uniform draw `r`. */
  function Classify(r: real): (k: Kind)
    ensures k == Breakable <==> r > 0.90
    ensures k == Moving <==> 0.75 < r <= 0.90
    ensures k == Normal <==> r <= 0.75
  {
    if r > 0.90 then Breakable else if r > 0.75 then Moving else Normal
  }

  /** `Platform(x, y, width, kind)`: draws the speed, then the spring, then the
      booster flag, consuming three draws whatever the kind. */
  function Make(x: int, y: real, width: int, kind: Kind, s: Stream): (r: (Platform, Stream))
    requires Unit(s) && width > 0
    ensures WellFormed(r.0) && r.0.active
    ensures r.0.x == x as real && r.0.y == y && r.0.width == width && r.0.kind == kind
    ensures width >= 100 ==> !r.0.spring
    ensures |s| > 0 ==> (r.0.speed < 0 <==> s[0] < 0.5)
    ensures |s| == 0 ==> r.0.speed == -2
    ensures r.0.spring <==> |s| > 1 && s[1] > 0.88 && kind == Normal && width < 100
    ensures r.0.booster <==> |s| > 2 && s[2] > 0.94 && kind == Normal
    ensures Unit(r.1) && |r.1| <= |s|
    ensures |s| >= 3 ==> r.1 == s[3..]
    ensures |s| < 3 ==> r.1 == []
  {
    var (u1, s1) := Next(s);
    var (u2, s2) := Next(s1);
    var (u3, s3) := Next(s2);
    var p := Platform(x as real, y, width, kind, ChooseSpeed(u1),
                      u2 > 0.88 && kind == Normal && width < 100,
                      u3 > 0.94 && kind == Normal,
                      true);
    (p, s3)
  }

  /** `Platform.update` exactly as written: a moving platform reverses whenever
      it is at or beyond an edge, whichever way it is already going. */
  function MoveAsWritten(p: Platform, shift: real, mult: real): (q: Platform)
    ensures q.y == p.y + shift
    ensures q.kind == p.kind && q.width == p.width && q.active == p.active
    ensures q.spring == p.spring && q.booster == p.booster
    ensures p.kind != Moving ==> q.x == p.x && q.speed == p.speed
    ensures q.speed == p.speed || q.speed == -p.speed
    ensures p.kind == Moving ==> q.x == p.x + p.speed as real * mult
    ensures p.kind == Moving && p.speed != 0 ==>
      (q.speed == -p.speed <==> q.x <= 0.0 || q.x + q.width as real >= Width as real)
  {
    var y := p.y + shift;
    if p.kind != Moving then p.(y := y)
    else
      var x := p.x + p.speed as real * mult;
      var flip := x <= 0.0 || x + p.width as real >= Width as real;
      p.(x := x, y := y, speed := if flip then -p.speed else p.speed)
  }

  /** A moving platform that starts exactly on the left edge heading left is
      locked there: two frames bring it back to where it started, for ever. */
  lemma EdgeLockAsWritten(shift1: real, shift2: real)
    ensures
      var p := Platform(0.0, 100.0, PlatformWidth, Moving, -2, false, false, true);
      var p2 := MoveAsWritten(MoveAsWritten(p, shift1, 1.0), shift2, 1.0);
      && p2 == p.(y := p.y + shift1 + shift2)
      && p2.x <= 0.0 && MoveAsWritten(p2, 0.0, 1.0).x < p2.x
  {
  }

  function Abs(n: int): int { if n < 0 then -n else n }

  /** `Platform.update` with the bounce pointing away from the edge it touched:
      the camera shift moves every platform, and a moving platform steps
      sideways by its speed times the multiplier. */
  function Move(p: Platform, shift: real, mult: real): (q: Platform)
    ensures q.y == p.y + shift
    ensures q.kind == p.kind && q.width == p.width && q.active == p.active
    ensures q.spring == p.spring && q.booster == p.booster
    ensures p.kind != Moving ==> q.x == p.x && q.speed == p.speed
    ensures p.kind == Moving ==> q.x == p.x + p.speed as real * mult
    ensures Abs(q.speed) == Abs(p.speed)
    ensures WellFormed(p) ==> WellFormed(q)
    ensures p.kind == Moving && p.speed != 0 ==>
      && (q.x <= 0.0 ==> q.speed > 0)
      && (q.x > 0.0 && q.x + q.width as real >= Width as real ==> q.speed < 0)
  {
    var y := p.y + shift;
    if p.kind != Moving then p.(y := y)
    else
      var x := p.x + p.speed as real * mult;
      var speed :=
        if x <= 0.0 then Abs(p.speed)
        else if x + p.width as real >= Width as real then -Abs(p.speed)
        else p.speed;
      p.(x := x, y := y, speed := speed)
  }

  /** The corrected move agrees with the source's in everything but the speed,
      and the speeds differ only for a platform that ends the step at an edge
      while already heading back into the screen. */
  lemma MoveMatchesAsWritten(p: Platform, shift: real, mult: real)
    ensures var q := Move(p, shift, mult);
      q == MoveAsWritten(p, shift, mult).(speed := q.speed)
    ensures var q := Move(p, shift, mult);
      q.speed != MoveAsWritten(p, shift, mult).speed ==>
        && p.kind == Moving
        && ((q.x <= 0.0 && p.speed > 0) || (q.x + q.width as real >= Width as real && p.speed < 0))
  {
  }

  /** With the corrected bounce a platform that ends a frame at or past the left
      edge moves right on the next one, and one at or past the right edge moves left. */
  lemma BounceLeavesEdge(p: Platform, shift1: real, shift2: real, mult: real)
    requires p.kind == Moving && p.speed != 0 && mult > 0.0
    requires p.width < Width
    ensures var q := Move(p, shift1, mult);
      && (q.x <= 0.0 ==> Move(q, shift2, mult).x > q.x)
      && (q.x + q.width as real >= Width as real ==> Move(q, shift2, mult).x < q.x)
  {
  }

  /** The camera shift moves every platform by the same amount, so vertical
      distances between platforms are preserved. */
  lemma ShiftPreservesGaps(p: Platform, q: Platform, shift: real, mult: real)
    ensures Move(p, shift, mult).y - Move(q, shift, mult).y == p.y - q.y
  {
  }
}

=== FILE: player.dfy ===
/** The player sprite: kinematics, the rocket timer and the difficulty multiplier
    (main.py, `Player.reset` and `Player.update`, and line 269). */
module Players {
  import opened Config
  import opened Geometry

  /** `box` is the sprite's rectangle: it is recomputed from the position only
      by `Update` and `Reset`, so it lags behind a later camera shift. */
  datatype Player = Player(
    x: real, y: real,
    vx: real, vy: real,
    ax: real, ay: real,
    box: Box,
    score: int,
    mult: real,
    rocketTimer: int,
    highScore: int,
    character: nat)

  /** Player's starting position. */
  const StartX: real := (Width / 2) as real
  const StartY: real := (Height - 100) as real

  /** The difficulty multiplier: one quarter more for every 70 points past 50.
      Python's `//` floors; Dafny's `/` by a positive divisor floors too. */
  function Multiplier(score: int): (m: real)
    ensures m >= 1.0
    ensures score < 120 ==> m == 1.0
  {
    var steps := (score - 50) / 70;
    var k: nat := if steps > 0 then steps else 0;
    1.0 + k as real * 0.25
  }

  lemma MultiplierMonotone(a: int, b: int)
    requires a <= b
    ensures Multiplier(a) <= Multiplier(b)
  {
  }

  /** Every 70 points past 50 the multiplier grows by exactly a quarter. */
  lemma MultiplierStep(score: int)
    requires score >= 50
    ensures Multiplier(score + 70) == Multiplier(score) + 0.25
  {
    assert (score + 70 - 50) / 70 == (score - 50) / 70 + 1;
  }

  /** Horizontal wrap: leaving on one side re-enters on the other, never clamps. */
  function Wrap(x: real): (r: real)
    ensures 0.0 <= r <= Width as real
    ensures x > Width as real ==> r == 0.0
    ensures x < 0.0 ==> r == Width as real
    ensures 0.0 <= x <= Width as real ==> r == x
  {
    var x1 := if x > Width as real then 0.0 else x;
    if x1 < 0.0 then Width as real else x1
  }

  /** `Player.reset`: back to the start, keeping the high score and the chosen character. */
  function Reset(p: Player): (q: Player)
    ensures q.x == StartX && q.y == StartY
    ensures q.vx == 0.0 && q.vy == 0.0 && q.ax == 0.0 && q.ay == 0.0
    ensures q.box.Bottom() == StartY
    ensures q.score == 0 && q.mult == 1.0 && q.rocketTimer == 0
    ensures q.highScore == p.highScore && q.character == p.character
  {
    Player(StartX, StartY, 0.0, 0.0, 0.0, 0.0,
           MidBottomAt(StartX, StartY, PlayerWidth, PlayerHeight),
           0, 1.0, 0, p.highScore, p.character)
  }

  predicate FullThrust(p: Player) { p.rocketTimer > RocketSlowdown }

  predicate Decaying(p: Player) { 0 < p.rocketTimer <= RocketSlowdown }

  /** `Player.update(move_dir)`: one frame of motion. While the rocket timer is
      positive it counts down by one and overrides gravity; otherwise gravity
      and steering act, with friction on the horizontal speed. The acceleration
      from the last unboosted frame keeps contributing half a step to the position. */
  function Update(p: Player, moveDir: int): (q: Player)
    ensures p.rocketTimer > 0 ==> q.rocketTimer == p.rocketTimer - 1
    ensures p.rocketTimer <= 0 ==> q.rocketTimer == p.rocketTimer
    ensures p.rocketTimer >= 0 ==> q.rocketTimer >= 0
    ensures FullThrust(p) ==> q.vy == RocketMaxSpeed && q.vx == p.vx
    ensures Decaying(p) ==> q.vy == p.vy + RocketDecayGravity && q.vx == p.vx
    ensures p.rocketTimer <= 0 ==> q.vy == p.vy + BaseGravity * p.mult
    ensures p.rocketTimer <= 0 ==>
      && q.ax == (if moveDir != 0 then moveDir as real * Acceleration * p.mult else 0.0) + p.vx * Friction
      && q.ay == BaseGravity * p.mult
      && q.vx == p.vx + q.ax
    ensures p.rocketTimer > 0 ==> q.ax == p.ax && q.ay == p.ay
    ensures q.y == p.y + q.vy + 0.5 * q.ay
    ensures q.x == Wrap(p.x + q.vx + 0.5 * q.ax)
    ensures 0.0 <= q.x <= Width as real
    ensures q.box == MidTopAt(q.x, q.y, PlayerWidth, PlayerHeight)
    ensures q.score == p.score && q.mult == p.mult
    ensures q.highScore == p.highScore && q.character == p.character
  {
    var p1 :=
      if FullThrust(p) then
        p.(vy := RocketMaxSpeed, rocketTimer := p.rocketTimer - 1)
      else if Decaying(p) then
        p.(vy := p.vy + RocketDecayGravity, rocketTimer := p.rocketTimer - 1)
      else
        var steer := if moveDir != 0 then moveDir as real * Acceleration * p.mult else 0.0;
        var ax := steer + p.vx * Friction;
        var ay := BaseGravity * p.mult;
        p.(vx := p.vx + ax, vy := p.vy + ay, ax := ax, ay := ay);
    var x := Wrap(p1.x + p1.vx + 0.5 * p1.ax);
    var y := p1.y + p1.vy + 0.5 * p1.ay;
    p1.(x := x, y := y, box := MidTopAt(x, y, PlayerWidth, PlayerHeight))
  }

  /** Friction caps the horizontal speed: once within 7.5 times the multiplier
      it stays there, whatever the steering and whatever the rocket does. */
  lemma HorizontalSpeedBound(p: Player, moveDir: int)
    requires -1 <= moveDir <= 1
    requires p.mult >= 1.0
    requires -7.5 * p.mult <= p.vx <= 7.5 * p.mult
    ensures -7.5 * p.mult <= Update(p, moveDir).vx <= 7.5 * p.mult
  {
  }

  /** The frames that follow: `moves[i]` is the steering input of frame i. */
  function Run(p: Player, moves: seq<int>): Player
    decreases |moves|
  {
    if |moves| == 0 then p
    else Update(Run(p, moves[..|moves| - 1]), moves[|moves| - 1])
  }

  /** A positive rocket timer counts down by exactly one per frame. */
  lemma {:induction false} Countdown(p: Player, moves: seq<int>)
    requires |moves| <= p.rocketTimer
    ensures Run(p, moves).rocketTimer == p.rocketTimer - |moves|
    decreases |moves|
  {
    if |moves| > 0 {
      Countdown(p, moves[..|moves| - 1]);
    }
  }

  /** After a booster pickup the next 85 frames are full thrust, the 45 after
      that decay, and the rocket is spent after 130 frames, whatever the steering. */
  lemma BoostPhases(p: Player)
    requires p.rocketTimer == BoostFrames
    ensures forall moves: seq<int> :: |moves| < RocketDuration ==> FullThrust(Run(p, moves))
    ensures forall moves: seq<int> ::
      RocketDuration <= |moves| < BoostFrames ==> Decaying(Run(p, moves))
    ensures forall moves: seq<int> :: |moves| == BoostFrames ==> Run(p, moves).rocketTimer == 0
  {
    forall moves: seq<int> | |moves| <= BoostFrames
      ensures Run(p, moves).rocketTimer == BoostFrames - |moves|
    {
      Countdown(p, moves);
    }
  }

  /** During full thrust every frame climbs at the rocket's top speed. */
  lemma ThrustPinsSpeed(p: Player, moves: seq<int>, moveDir: int)
    requires p.rocketTimer == BoostFrames
    requires |moves| < RocketDuration
    ensures Run(p, moves + [moveDir]).vy == RocketMaxSpeed
  {
    BoostPhases(p);
    assert (moves + [moveDir])[..|moves|] == moves;
  }
}

=== FILE: random.dfy ===
/** The game's random numbers, supplied from outside as a stream of draws.
    Every call the game makes into its random-number source consumes one draw,
    in the order the calls happen. */
module Random {

  type Stream = seq<real>

  /** What `random.random()` guarantees of every draw. */
  predicate Unit(s: Stream) {
    forall i :: 0 <= i < |s| ==> 0.0 <= s[i] < 1.0
  }

  /** The next draw and the rest of the stream; an exhausted stream yields 0.0. */
  function Next(s: Stream): (r: (real, Stream))
    requires Unit(s)
    ensures 0.0 <= r.0 < 1.0
    ensures Unit(r.1)
    ensures |s| > 0 ==> r.0 == s[0] && r.1 == s[1..]
    ensures |s| == 0 ==> r.0 == 0.0 && r.1 == []
  {
    if |s| == 0 then (0.0, []) else (s[0], s[1..])
  }

  /** `random.randint(lo, hi)` computed from one uniform draw `u`. */
  function RandInt(lo: int, hi: int, u: real): (r: int)
    requires lo <= hi && 0.0 <= u < 1.0
    ensures lo <= r <= hi
  {
    var n := (hi - lo + 1) as real;
    assert 0.0 <= u * n < n by {
      assert u * n <= 1.0 * n;
      assert u * n < n by { assert (1.0 - u) * n > 0.0; }
    }
    lo + (u * n).Floor
  }

  /** `random.choice([-2, 2])` computed from one uniform draw `u`. */
  function ChooseSpeed(u: real): (r: int)
    ensures r == -2 || r == 2
    ensures u < 0.5 <==> r < 0
  {
    if u < 0.5 then -2 else 2
  }
}
